=== FILE: README.md ===
# AutoFlow workflow engine — a Dafny model

This project models the execution core of AutoFlow, a tool that runs saved automation graphs.
A saved **workflow** has a name, a list of **nodes** (id, type, free-form `data` such as a
label, a URL, an API key, an instruction, a phone number or an e-mail address) and a list of
**edges** (source id, target id). The model covers four parts:

- **Workflow schema** (`workflow.dfy`, module `WorkflowModel`). It models the Mongoose
  `WorkflowSchema`: the required paths, the `{}` default for a node's `data`, and the lookups
  the engine makes. These are "first node with this id" and "targets of the edges leaving this id".
- **Handlers** (`helpers.dfy`, `handlers.dfy`, modules `Helpers` and `Handlers`). These are the
  four blocks inside `executeNode`: HTTP fetch, AI prompt, WhatsApp send and Gmail send. A
  block is selected by a substring test on the node label, and the blocks run in that fixed
  order. They share a run context whose `externalData` and `aiResponse` slots carry data
  downstream. Each block distinguishes three ways of ending:
  - it completes normally;
  - it takes an early `return`, which also skips the node's fan-out;
  - it throws, and the `catch` swallows the exception, after which the fan-out still happens.
- **Traversal** (`engine.dfy`, module `Engine`). This is `runEngine`:
  - the context is reset;
  - the start node is chosen;
  - a depth-first fan-out follows the edges, guarded by a run-scoped `visited` set.

  The fan-out is taken in edge-list order. External calls are abstracted as a provider oracle
  `Effect -> Option<string>`. Every call is recorded as an `Effect` tagged with the calling node.
- **Activation registry** (`registry.dfy`, module `Registry`). This is the `activeJobs` table.
  It maps a workflow id to the cron job that re-runs the workflow snapshot loaded at
  activation. Jobs are opaque handles with a running flag.

String helpers shared by these parts live in `strings.dfy` (module `Strings`). They model
JavaScript's `includes`, `replace` with a string pattern, and `substring(0, n)`.

Some facts about the code that shape the model:
- there is no fallback to the first node when no node is a trigger;
- `deactivate` replies `Inactive` whether or not a job was registered, so there is no separate
  "nothing to deactivate" reply (the crash on an inherited name is under Findings);
- the cron callback runs the snapshot captured at activation, not a fresh load;
- there is no identity-filter gate;
- `visited` is updated only after the node has been found with `data`. There is no `await`
  between the check and the update, so concurrent branches cannot both run a node.

## Model

| member | source | states |
|---|---|---|
| `Strings.Includes` | server.js:39 | `label.includes(word)` is true exactly when `word` occurs at some index of the label |
| `Strings.IndexOf` | server.js:39 | the index found is an occurrence with no earlier occurrence; no index means no occurrence anywhere |
| `Strings.ReplaceFirst` | server.js:75 | the literal replacement the prompt line evidently intends: with no occurrence the text is unchanged; otherwise the left-most occurrence, and only it, is replaced by the replacement text character for character |
| `Strings.JsReplaceFirst` | server.js:75 | as written: `replace` with a string pattern rewrites the first occurrence and expands `$`-patterns in the replacement |
| `Strings.JsReplaceAgreesWithoutDollar` | server.js:75 | for replacement text without `$`, the JavaScript evaluation equals the literal substitution |
| `Strings.PrefixIdempotent` | server.js:102 | taking a prefix of at most n characters twice is the same as taking it once |
| `Helpers.SanitizePhone` | server.js:97 | the cleaned phone has only ASCII digits and `+`; it is an order-preserving subsequence of the input; it keeps every digit and `+` of the input with its multiplicity and drops everything else |
| `Helpers.SanitizeClean` | server.js:97 | a phone number that is already clean is returned unchanged |
| `Helpers.SanitizeIdempotent` | server.js:97 | sanitising twice equals sanitising once |
| `Helpers.CapBody` | server.js:102 | the WhatsApp body is the prefix of `aiResponse` of length min(length, 1550); short texts are sent whole |
| `Helpers.CapBodyIdempotent` | server.js:102 | capping an already capped body changes nothing |
| `Helpers.PromptTemplate` | server.js:74 | the template is the instruction when it is present and non-empty, otherwise `Analyze this:` |
| `Helpers.JsBuildPrompt` | server.js:74-75 | the prompt as sent: the template with its first `{{externalData}}` replaced by the fetched data after JavaScript's `$`-pattern expansion; a template without the placeholder is sent as is |
| `Helpers.BuildPrompt` | server.js:74-75 | the evidently intended prompt: the template with its first `{{externalData}}` replaced by the fetched data inserted literally; a template without the placeholder is sent as is |
| `Helpers.JsPromptLiteralWithoutDollar` | server.js:75 | for fetched data without `$`, the prompt as sent equals the intended literal prompt |
| `Helpers.DefaultPromptOmitsData` | server.js:74-75 | with no instruction the prompt, as sent and as intended, is exactly `Analyze this:`, so the fetched data is not sent |
| `Helpers.SecondPlaceholderKept` | server.js:75 | only the first `{{externalData}}` is filled: for a template that starts with the placeholder, the prompt as intended is the data followed by the rest of the template, and the prompt as sent is the `$`-expanded data followed by it; a later placeholder therefore still occurs in both |
| `Helpers.PromptDollarExpansion` | server.js:74-75 | as sent, the instruction `Price: {{externalData}}` with fetched data `$$5` gives the prompt `Price: $5` |
| `Helpers.PromptKeepsDollars` | server.js:75 | with literal substitution, fetched data `$$5` reaches the prompt intact |
| `Helpers.ApiHeaders` | server.js:43-49 | `Accept: application/json` is always sent; the three credential headers are sent exactly when the API key is non-empty, and each carries the key, with `Authorization` as `Bearer <key>` |
| `WorkflowModel.Validate` | models/Workflow.js:3-16 | a document validates exactly when the name, every node id and type, and every edge source and target are non-empty strings; the result is well-formed, keeps the node and edge counts, and gives `{}` to every node whose `data` was not supplied; a rejection names at least one path and names the name path exactly when the name is missing |
| `WorkflowModel.DataDefault` | models/Workflow.js:9 | absent `data` becomes `{}`; explicit null stays null; given data is kept |
| `WorkflowModel.ValidateToRaw` | models/Workflow.js:3-16 | serialising a well-formed workflow and validating it again gives the same workflow |
| `WorkflowModel.SchemaAdmitsLooseGraphs` | models/Workflow.js:6-15 | the schema accepts duplicate node ids and edges to ids that name no node |
| `WorkflowModel.FindNode` | server.js:31 | the node found carries the id and precedes every other node with that id; nothing is found exactly when no node has the id |
| `WorkflowModel.Targets` | server.js:126 | a target is listed exactly when an edge from the node to it exists |
| `WorkflowModel.TargetsAppend` | server.js:126 | the targets of a concatenated edge list are the targets of the first part followed by those of the second, so the edge-list order is kept |
| `WorkflowModel.TargetsInOrder` | server.js:126 | each edge leaving the node contributes its target at the position given by the number of earlier edges leaving the node |
| `WorkflowModel.TargetsCount` | server.js:126 | each target is listed as many times as there are edges from the node to it |
| `Handlers.HttpHandler` | server.js:39-62 | one GET with the node's url and `ApiHeaders`; `externalData` becomes the body on success and `Error: Check your URL or API Key.` on failure; no other slot changes; the block always completes |
| `Handlers.AiHandler` | server.js:65-89 | the block returns early, with no call and no change, exactly when `externalData` is empty; otherwise it makes one model call with the prompt as `JsBuildPrompt` builds it, `$`-patterns in the fetched data expanded; `aiResponse` is set on success and left alone on failure |
| `Handlers.WhatsAppHandler` | server.js:92-105 | the block returns early exactly when `aiResponse` is empty; a missing `toPhone` throws before any call; otherwise it sends one message to `whatsapp:` followed by the sanitised phone, with the capped body; a failed send throws |
| `Handlers.GmailHandler` | server.js:108-121 | the block returns early exactly when `aiResponse` is empty; otherwise it sends one mail to `toEmail` with subject `Workflow Update` and the full `aiResponse`; a failed send throws |
| `Handlers.Stage` | server.js:39-108 | a block runs exactly when its word is in the label and every earlier block completed normally; it only appends its calls, in dispatch order; after it, every call comes from a selected block and, while control flows normally, every selected block so far has made its call |
| `Handlers.Dispatch` | server.js:37-124 | a node's handlers change no context key except the two slots; every call they make is tagged with the node and falls in HTTP, AI, WhatsApp, Gmail order, at most one of each; a node without a label throws and changes nothing; every call comes from a block whose word is in the label; a node that completes normally has made the call of every block its label selects; a label containing `HTTP` makes the GET first |
| `Handlers.AiGate` | server.js:65-66 | an AI node with empty `externalData` (and no HTTP block) makes no call, changes nothing and returns early |
| `Handlers.SendGate` | server.js:92-109 | a WhatsApp or Gmail node with empty `aiResponse` (and no AI block) sends nothing and returns early |
| `Handlers.FetchFailureFeedsAi` | server.js:58-75 | after a failed fetch, an AI block in the same node still calls the model, with the error text as its data |
| `Handlers.GmailNodeMails` | server.js:108-117 | a Gmail node finding `aiResponse` set sends exactly one mail, to `toEmail` with the full text, and completes normally exactly when the send succeeds |
| `Handlers.FetchFeedsAi` | server.js:39-82 | a non-empty fetched body is the data of the model call made by an AI block in the same node |
| `Handlers.WhatsAppFailureSkipsGmail` | server.js:99-124 | a failed WhatsApp send throws past the Gmail block of the same node: no mail is sent and the exception is caught |
| `Engine.InitialContext` | server.js:26 | `aiResponse` and `externalData` start as `""`, whatever the seed holds; every other seed key is kept |
| `Engine.Visit` | server.js:29-128 | `executeNode` only grows the run state, and only by nodes that can run; each node runs at most once; every node that ran and did not return early has all its runnable targets visited; slots other than the two handler slots never change; the node itself ends up visited when it can run; a fresh node is marked as having returned early exactly when its handlers returned, so one whose handlers threw (the catch at line 122) still has all its runnable targets visited; every node it runs is `id` or the target of an edge from a node that ran before it and did not return early, so the trace stays justified from any root that justified it; a fresh node that can run makes its handlers' calls, on the context it is entered with, immediately after the calls made before it, and when its handlers return early the run context is what they left |
| `Engine.VisitAll` | server.js:126-127 | the fan-out over a node's edges leaves every runnable target visited, with the same invariants as `Visit`, and every node it runs is entered through an edge from a node that already ran and did not return early |
| `Engine.ChooseStart` | server.js:130 | the start node is the first node, in list order, of type `input` or with `Trigger` in its label; no such node gives no start; a non-input node without data or label before it makes the search throw |
| `Engine.RunEngine` | server.js:25-132 | without a start node nothing runs and the context is the reset seed; every non-slot seed key survives the run; the run is consistent (each node at most once); only nodes that can run are visited; the start node is visited when it can run; the visited set is closed under the edges of nodes that did not return early; every node that runs is the start node or the target of an edge whose source ran earlier in the run and did not return early; when the start node can run, the run's calls begin with the calls its handlers make on the reset context |
| `Engine.RunAtMostOnce` | server.js:30-33 | no node runs twice in a run, and no node makes the same external call twice |
| `Engine.RunEntersThroughCompletedNodes` | server.js:65-131 | an early return prunes the whole downstream subtree: every node that runs, other than the start node, has an incoming edge from a node that ran and did not return early |
| `Engine.ReturnedNodePrunes` | server.js:65-127 | a node whose handlers return early runs alone: none of its outgoing edges is followed |
| `Engine.SoleTargetRunsNext` | server.js:126-127 | a node that can run, does not return early and has a single outgoing edge continues the run with that edge's target, over the context and calls it leaves |
| `Engine.MailNodeSendsAnswer` | server.js:108-121 | a fresh node whose label selects only the Gmail block, reached with `aiResponse` set, mails that text to its `toEmail` |
| `Engine.AnswerReachesMail` | server.js:65-127 | an answer a node leaves in `aiResponse` reaches the mail node its only edge leads to and is mailed |
| `Engine.FreshVisitMailsAnswer` | server.js:26-127 | from the fresh run state, a node that selects no block passes the reset context on through its only edge, and the answer the next node computes on it is mailed by the mail node after it |
| `Engine.GeneratedTextIsMailed` | server.js:25-131 | in a run of the workflow input -> fetch-and-ask -> mail, a non-empty fetched body goes into the prompt, and the model's answer to that prompt is mailed to the mail node's `toEmail` |
| `Handlers.FetchedAnswerStored` | server.js:39-89 | a node whose label selects exactly HTTP and AI, given a non-empty body and a model answer, makes exactly the GET and then the model call with the body in the prompt, completes normally and leaves the answer in `aiResponse` |
| `Registry.EmptyValid` | server.js:22 | the empty registry satisfies the one-live-job-per-id invariant |
| `Registry.LiveJobsRegistered` | server.js:22 | in a valid registry the running jobs of an id are exactly its registered job, or none |
| `Registry.Activate` | server.js:152-160 | activation stops the previously registered job of the id, registers one new running job over the loaded snapshot, replies `Active`, keeps the invariant, and leaves other ids and other jobs unchanged |
| `Registry.Deactivate` | server.js:163-169 | after deactivation no job is registered or running for the id; a missing entry is a no-op; the reply is `Inactive` either way; other ids and other jobs are unchanged |
| `Registry.ActivateTwiceThenDeactivate` | server.js:154-168 | activating twice leaves exactly one live job for the id; deactivating afterwards leaves none |
| `Registry.Tick` | server.js:155-158 | a stopped job does nothing; a running job over a loaded snapshot runs `runEngine` on that activation-time snapshot with an empty seed; a running job over a missing workflow throws on `workflow.name` before the engine starts |
| `Registry.DeactivatedNeverTicks` | server.js:164-166 | after deactivation no job of that id ticks |
| `Registry.DeactivateAsWritten` | server.js:164-168 | as written over a plain object: an inherited name such as `toString` makes the route throw instead of replying |
| `Registry.InheritedKeyCrashesDeactivate` | server.js:164-168 | `deactivate("toString")` on an empty registry throws as written; the own-key registry replies `Inactive` and changes nothing |

## Left out

- Database and HTTP plumbing are not modelled. This covers the MongoDB connection, the save
  route, the Express request and response handling, and logging. The manual-run route is
  `RunEngine(w, call, map[])`.
- Activate's `findById` is not modelled. The loaded workflow, or `None` for `null`, is a
  parameter. A lookup that throws leaves the registry untouched and is not modelled.
- Concrete providers are not modelled: axios, Gemini, Twilio and nodemailer, plus their
  credentials and sender addresses. They become the oracle `Provider`. Each call's outcome may
  depend on the call and its node. A failure of the Twilio client constructor is folded into a
  failed send.
- `JSON.stringify` pretty-printing of the fetched body is not modelled. The oracle returns the
  stored text. Extraction of `candidates[0].content.parts[0].text` is not modelled either.
- Timing is not modelled: the 5-second cool-down, the 10-second HTTP timeout, and the cron
  expression and its tick times.
- Concurrency is not modelled. `Promise.all` branches are taken one after the other in
  edge-list order. In JavaScript, a branch suspended at an `await` lets its siblings run
  first. This changes more than which node wins a shared slot: the early returns at
  server.js:66, 93 and 109 test the shared context, so the order also decides which nodes
  return early, whose subtrees are pruned, and which calls are made at all. For example, take
  edges t -> b (label `HTTP`) and t -> c (label `AI`) with every call failing. In JavaScript, b
  suspends at `await axios.get` (server.js:51), c then finds `externalData` empty (server.js:66),
  returns early without calling the model, and its subtree is never entered. The model runs b
  first, so c calls the model with the fetch error text as its data and fans out. The cool-down
  `await` at server.js:70 has the same effect on WhatsApp or Gmail siblings of an AI node,
  which run before `aiResponse` is set and return early at server.js:93 or 109.
- `Engine.Visit`: it describes the sequential depth-first order. Under JavaScript's
  interleaving, a different set of nodes can return early, so different nodes can run and
  different calls can be made; that interleaving is not modelled.
- `Engine.RunEngine`: its run follows the same sequential order as `Engine.Visit`, with the
  same consequence for early returns, pruning and calls.
- The frontend is not modelled (React components, `updateNodeData`), nor is `models/Log.js`.
  The frontend's `targetUserEmail` is never read by the server.
- `data` values are strings. Non-string `Mixed` values and Mongoose's casting of non-strings are
  not modelled.
- Strings are sequences of Dafny characters. JavaScript's UTF-16 code units are not
  distinguished, so `substring(0, 1550)` splitting a surrogate pair is not modelled.
- `Helpers.CapBody`: counts 1550 characters, where JavaScript's `substring(0, 1550)` counts
  1550 UTF-16 code units. Text outside the Basic Multilingual Plane takes two code units per
  character, so the source sends fewer characters than the model: an `aiResponse` of 1000 emoji
  is sent whole by the model, while the source keeps only 775 of them.
- `WorkflowModel.Validate` states which paths fail, but does not model Mongoose's error
  messages. It also does not model the dropping of fields outside the schema, such as node
  positions.
- `Registry.Activate` and `Registry.Deactivate` require the registry invariant `Valid`. That
  invariant holds at start (`EmptyValid`) and both operations preserve it, so every registry the
  routes can see satisfies it.
- `Registry.Deactivate`: looks up registered ids only. Over the plain object of the code, an
  inherited `Object.prototype` name makes the route throw; `Registry.DeactivateAsWritten` models
  that case.
- Runs already in flight when a job is stopped are not modelled. Stopping only prevents future
  ticks.

## Findings

| source | as written | input that shows it | evidently intended | confidence | as-written member | corrected member |
|---|---|---|---|---|---|---|
| server.js:75 | `prompt.replace('{{externalData}}', externalData)` expands `$$`, `$&`, `` $` `` and `$'` inside the fetched data | instruction `Price: {{externalData}}` with fetched data `$$5` gives the prompt `Price: $5` | the fetched data is inserted literally | high (ECMAScript semantics), not executed | `Helpers.JsBuildPrompt` | `Helpers.BuildPrompt` |
| server.js:164-165 | `activeJobs` is a plain object, so `activeJobs[id]` finds inherited properties | `POST /api/workflows/toString/deactivate` with no job finds `Object.prototype.toString`; `.stop()` throws and the caller gets a 500 instead of `Inactive` | only ids registered by `activate` are looked up | high, not executed | `Registry.DeactivateAsWritten` | `Registry.Deactivate` |

The AI handler, and so the whole engine, sends the prompt as written (`JsBuildPrompt`).
`Helpers.PromptDollarExpansion` and `Helpers.PromptKeepsDollars` exhibit the first discrepancy,
and `Helpers.JsPromptLiteralWithoutDollar` shows that the two prompts agree on data without `$`.
The registry's routes use the own-key `Registry.Deactivate`. `Registry.DeactivateAsWritten`
models the route over a plain object, and `Registry.InheritedKeyCrashesDeactivate` exhibits the
second discrepancy.

=== FILE: engine.dfy ===
/** `runEngine`: one run of a workflow. The start node is chosen, then nodes are executed by a
    depth-first fan-out over the edges that threads the run context and a run-scoped `visited`
    set. The concurrent `Promise.all` fan-out is taken in edge-list order. */
module Engine {
  import opened Wrappers
  import opened Strings
  import opened WorkflowModel
  import opened Helpers
  import opened Handlers

  /** The state of one run: the context, the `visited` set, the nodes whose handlers ran (in
      order), those among them that returned early (and so fanned out to nothing), and every
      external call made so far. */
  datatype State = State(
    ctx: Context,
    visited: set<string>,
    trace: seq<string>,
    halted: set<string>,
    effects: seq<Effect>)

  /** `{ ...initialData, aiResponse: "", externalData: "" }`. */
  function InitialContext(seed: Context): (ctx: Context)
    ensures AiSlot in ctx && ctx[AiSlot] == ""
    ensures DataSlot in ctx && ctx[DataSlot] == ""
    ensures SlotsFrame(seed, ctx)
  {
    seed[AiSlot := ""][DataSlot := ""]
  }

  /** The state before any node runs. */
  function Fresh(seed: Context): State {
    State(InitialContext(seed), {}, [], {}, [])
  }

  /** Each node's calls come in dispatch order, so no node makes the same kind of call twice. */
  ghost predicate PerNodeOnce(effects: seq<Effect>) {
    forall i, j :: 0 <= i < j < |effects| && effects[i].node == effects[j].node ==>
      Rank(effects[i]) < Rank(effects[j])
  }

  /** The bookkeeping of a run agrees with itself: each node ran at most once, `visited` is
      exactly the set of nodes that ran, and every call was made by a node that ran. */
  ghost predicate Consistent(st: State) {
    && (forall i, j :: 0 <= i < j < |st.trace| ==> st.trace[i] != st.trace[j])
    && (forall x :: x in st.visited <==> x in st.trace)
    && st.halted <= st.visited
    && (forall k :: 0 <= k < |st.effects| ==> st.effects[k].node in st.visited)
    && PerNodeOnce(st.effects)
  }

  /** `r` is `st` after running some more nodes: everything only grows, only by nodes that can
      run, and no context slot other than the two handler slots changes. */
  ghost predicate Extends(w: Workflow, st: State, r: State) {
    && st.visited <= r.visited
    && r.visited - st.visited <= ExecIds(w)
    && st.trace <= r.trace
    && (forall k :: |st.trace| <= k < |r.trace| ==> r.trace[k] in r.visited - st.visited)
    && st.halted <= r.halted
    && r.halted - st.halted <= r.visited - st.visited
    && st.effects <= r.effects
    && (forall k :: |st.effects| <= k < |r.effects| ==> r.effects[k].node in r.visited - st.visited)
    && SlotsFrame(st.ctx, r.ctx)
  }

  lemma ExtendsTrans(w: Workflow, a: State, b: State, c: State)
    requires Extends(w, a, b) && Extends(w, b, c)
    ensures Extends(w, a, c)
  {
    assert forall k :: |a.trace| <= k < |b.trace| ==> c.trace[k] == b.trace[k];
    assert forall k :: |a.effects| <= k < |b.effects| ==> c.effects[k] == b.effects[k];
    forall x | x in c.halted - a.halted ensures x in c.visited - a.visited {
      if x in b.halted {
        assert x in b.visited - a.visited;
      } else {
        assert x in c.visited - b.visited;
      }
    }
  }

  /** Every out-neighbour of `x` that can run is in `visited`. */
  ghost predicate FannedOut(w: Workflow, x: string, visited: set<string>) {
    forall t :: t in Targets(w.edges, x) ==> t in visited || !Executable(w, t)
  }

  /** Every node that ran after `st` and did not return early has fanned out in `r`. */
  ghost predicate ClosedSince(w: Workflow, st: State, r: State) {
    forall x :: x in r.visited && x !in st.visited && x !in r.halted ==> FannedOut(w, x, r.visited)
  }

  lemma ClosedSinceTrans(w: Workflow, a: State, b: State, c: State)
    requires Extends(w, a, b) && Extends(w, b, c)
    requires ClosedSince(w, a, b) && ClosedSince(w, b, c)
    ensures ClosedSince(w, a, c)
  {
    forall x | x in c.visited && x !in a.visited && x !in c.halted
      ensures FannedOut(w, x, c.visited)
    {
      if x in b.visited {
        assert FannedOut(w, x, b.visited);
      }
    }
  }

  lemma UnvisitedShrinks(e: set<string>, v: set<string>, x: string)
    requires x in e && x !in v
    ensures |e - (v + {x})| < |e - v|
  {
    assert e - v == (e - (v + {x})) + {x};
  }

  lemma UnvisitedMonotone(e: set<string>, v: set<string>, v': set<string>)
    requires v <= v'
    ensures |e - v'| <= |e - v|
  {
    var a, b := e - v', e - v;
    assert b == a + (b - a);
    assert a * (b - a) == {};
  }

  /** The state right after node `id` (with data `d`) has run its handlers. */
  function AfterHandlers(st: State, id: string, step: Step): State {
    State(step.ctx,
          st.visited + {id},
          st.trace + [id],
          if step.flow == Returned then st.halted + {id} else st.halted,
          st.effects + step.effects)
  }

  lemma AfterHandlersExtends(w: Workflow, st: State, id: string, step: Step)
    requires id !in st.visited && Executable(w, id)
    requires SlotsFrame(st.ctx, step.ctx) && OrderedFrom(step.effects, id)
    ensures Extends(w, st, AfterHandlers(st, id, step))
  {
    var r := AfterHandlers(st, id, step);
    var n := FindNode(w.nodes, id).value;
    assert n in w.nodes && Executable(w, n.id);
    assert id in ExecIds(w);
    assert forall k :: |st.effects| <= k < |r.effects| ==> r.effects[k] == step.effects[k - |st.effects|];
  }

  lemma AfterHandlersConsistent(st: State, id: string, step: Step)
    requires id !in st.visited && OrderedFrom(step.effects, id)
    ensures Consistent(st) ==> Consistent(AfterHandlers(st, id, step))
  {
    if Consistent(st) {
      AfterHandlersConsistentCase(st, id, step);
    }
  }

  lemma AfterHandlersConsistentCase(st: State, id: string, step: Step)
    requires id !in st.visited && Consistent(st) && OrderedFrom(step.effects, id)
    ensures Consistent(AfterHandlers(st, id, step))
  {
    var r := AfterHandlers(st, id, step);
    var m := |st.effects|;
    assert forall k :: 0 <= k < m ==> r.effects[k] == st.effects[k];
    assert forall k :: m <= k < |r.effects| ==> r.effects[k] == step.effects[k - m];
    forall i, j | 0 <= i < j < |r.effects| && r.effects[i].node == r.effects[j].node
      ensures Rank(r.effects[i]) < Rank(r.effects[j])
    {
      if m <= i {
        assert r.effects[i] == step.effects[i - m];
      }
    }
    assert forall x :: x in r.visited <==> x in r.trace;
  }

  /** Running a node and then its fan-out extends the state and leaves the node fanned out. */
  lemma FanOutSound(w: Workflow, st: State, st1: State, r: State, id: string)
    requires Extends(w, st, st1) && Extends(w, st1, r) && ClosedSince(w, st1, r)
    requires st1.visited == st.visited + {id} && id !in st.visited && st1.halted == st.halted
    requires FannedOut(w, id, r.visited)
    ensures Extends(w, st, r) && ClosedSince(w, st, r)
  {
    ExtendsTrans(w, st, st1, r);
    forall x | x in r.visited && x !in st.visited && x !in r.halted
      ensures FannedOut(w, x, r.visited)
    {
      if x != id {
        assert x !in st1.visited;
      }
    }
  }

  /** The node at position `k` of the trace is the root or the target of an edge from a node
      that ran before it and did not return early. */
  ghost predicate EnteredAt(w: Workflow, root: string, st: State, k: int)
    requires 0 <= k < |st.trace|
  {
    || st.trace[k] == root
    || exists j :: 0 <= j < k && st.trace[j] !in st.halted && Edge(st.trace[j], st.trace[k]) in w.edges
  }

  /** Every node in the trace was entered at its position. */
  ghost predicate Justified(w: Workflow, root: string, st: State) {
    forall k :: 0 <= k < |st.trace| ==> EnteredAt(w, root, st, k)
  }

  /** `id` is the root or the target of an edge from a node that already ran and did not return
      early. */
  ghost predicate Entered(w: Workflow, root: string, st: State, id: string) {
    || id == root
    || exists j :: 0 <= j < |st.trace| && st.trace[j] !in st.halted && Edge(st.trace[j], id) in w.edges
  }

  /** Running more nodes keeps every entry: a node that already ran is never marked as having
      returned early afterwards. */
  lemma EnteredKept(w: Workflow, root: string, a: State, b: State, id: string)
    requires Consistent(a) && Extends(w, a, b) && Entered(w, root, a, id)
    ensures Entered(w, root, b, id)
  {
    if id != root {
      var j :| 0 <= j < |a.trace| && a.trace[j] !in a.halted && Edge(a.trace[j], id) in w.edges;
      assert b.trace[j] == a.trace[j] && a.trace[j] in a.visited;
    }
  }

  /** Running a fresh node `id` that was entered keeps the trace justified. */
  lemma JustifiedAppend(w: Workflow, root: string, st: State, st1: State, id: string)
    requires id !in st.trace
    requires st1.trace == st.trace + [id] && st1.halted <= st.halted + {id}
    requires Justified(w, root, st) && Entered(w, root, st, id)
    ensures Justified(w, root, st1)
  {
    var t := st1.trace;
    forall k | 0 <= k < |t| ensures EnteredAt(w, root, st1, k) {
      if k < |st.trace| {
        assert EnteredAt(w, root, st, k);
        if t[k] != root {
          var j :| 0 <= j < k && st.trace[j] !in st.halted && Edge(st.trace[j], st.trace[k]) in w.edges;
          assert t[j] == st.trace[j] && t[k] == st.trace[k] && st.trace[j] != id;
        }
      } else if t[k] != root {
        var j :| 0 <= j < |st.trace| && st.trace[j] !in st.halted && Edge(st.trace[j], id) in w.edges;
        assert t[j] == st.trace[j] && t[k] == id && st.trace[j] != id;
      }
    }
  }

  /** The targets of the node that ran last are entered, unless it returned early. */
  lemma TargetsEntered(w: Workflow, root: string, st1: State, id: string)
    requires |st1.trace| > 0 && st1.trace[|st1.trace| - 1] == id && id !in st1.halted
    ensures forall t :: t in Targets(w.edges, id) ==> Entered(w, root, st1, t)
  {
  }

  /** Running node `id` keeps every justification the run had, for every root. */
  lemma RunNodeJustified(w: Workflow, st: State, st1: State, id: string)
    requires id !in st.visited
    requires st1.trace == st.trace + [id] && st1.halted <= st.halted + {id}
    ensures Consistent(st) ==>
              forall root :: Justified(w, root, st) && Entered(w, root, st, id) ==> Justified(w, root, st1)
  {
    if Consistent(st) {
      forall root | Justified(w, root, st) && Entered(w, root, st, id)
        ensures Justified(w, root, st1)
      {
        assert id !in st.trace;
        JustifiedAppend(w, root, st, st1, id);
      }
    }
  }

  /** Running node `id` and then its fan-out keeps every justification, for every root. */
  lemma FanOutJustified(w: Workflow, st: State, st1: State, r: State, id: string)
    requires id !in st.visited && (Consistent(st) ==> Consistent(st1))
    requires st1.trace == st.trace + [id] && st1.halted == st.halted
    requires Consistent(st1) ==>
               forall root ::
                 (Justified(w, root, st1) &&
                  (forall t :: t in Targets(w.edges, id) ==> Entered(w, root, st1, t))) ==>
                 Justified(w, root, r)
    ensures Consistent(st) ==>
              forall root :: Justified(w, root, st) && Entered(w, root, st, id) ==> Justified(w, root, r)
  {
    if Consistent(st) {
      forall root | Justified(w, root, st) && Entered(w, root, st, id)
        ensures Justified(w, root, r)
      {
        assert id !in st.trace;
        JustifiedAppend(w, root, st, st1, id);
        TargetsEntered(w, root, st1, id);
      }
    }
  }

  /** Visiting the first target and then the rest keeps every justification, for every root. */
  lemma NextTargetJustified(w: Workflow, ts: seq<string>, st: State, st1: State, r: State)
    requires ts != [] && Extends(w, st, st1) && (Consistent(st) ==> Consistent(st1))
    requires Consistent(st) ==>
               forall root :: Justified(w, root, st) && Entered(w, root, st, ts[0]) ==>
                 Justified(w, root, st1)
    requires Consistent(st1) ==>
               forall root ::
                 (Justified(w, root, st1) &&
                  (forall t :: t in ts[1..] ==> Entered(w, root, st1, t))) ==>
                 Justified(w, root, r)
    ensures Consistent(st) ==>
              forall root ::
                (Justified(w, root, st) && (forall t :: t in ts ==> Entered(w, root, st, t))) ==>
                Justified(w, root, r)
  {
    if Consistent(st) {
      forall root | Justified(w, root, st) && (forall t :: t in ts ==> Entered(w, root, st, t))
        ensures Justified(w, root, r)
      {
        assert Entered(w, root, st, ts[0]);
        forall t | t in ts[1..] ensures Entered(w, root, st1, t) {
          EnteredKept(w, root, st, st1, t);
        }
      }
    }
  }

  /** `executeNode(id)`: skipped when already visited, when no node has that id, or when the
      first node with that id has no `data`; otherwise marked visited, its handlers run, and
      unless they returned early, its outgoing edges are followed in list order. */
  function Visit(w: Workflow, call: Provider, id: string, st: State): (r: State)
    ensures Extends(w, st, r)
    ensures ClosedSince(w, st, r)
    ensures Consistent(st) ==> Consistent(r)
    ensures id in r.visited || !Executable(w, id)
    ensures id !in st.visited && id !in st.halted && Executable(w, id) ==>
              (id in r.halted <==>
               Dispatch(call, id, FindNode(w.nodes, id).value.data.value, st.ctx).flow == Returned)
    ensures Consistent(st) ==>
              forall root :: Justified(w, root, st) && Entered(w, root, st, id) ==> Justified(w, root, r)
    ensures id !in st.visited && Executable(w, id) ==>
              var step := Dispatch(call, id, FindNode(w.nodes, id).value.data.value, st.ctx);
              && st.effects + step.effects <= r.effects
              && (step.flow == Returned ==> r.ctx == step.ctx)
    decreases |ExecIds(w) - st.visited|, 0
  {
    if id in st.visited then st
    else match FindNode(w.nodes, id)
      case None => st
      case Some(n) =>
        match n.data
        case None => st
        case Some(d) =>
          var step := Dispatch(call, id, d, st.ctx);
          var st1 := AfterHandlers(st, id, step);
          AfterHandlersExtends(w, st, id, step);
          AfterHandlersConsistent(st, id, step);
          UnvisitedShrinks(ExecIds(w), st.visited, id);
          if step.flow == Returned then
            RunNodeJustified(w, st, st1, id);
            st1
          else
            var r := VisitAll(w, call, Targets(w.edges, id), st1);
            FanOutSound(w, st, st1, r, id);
            FanOutJustified(w, st, st1, r, id);
            r
  }

  /** `Promise.all(outgoingEdges.map(edge => executeNode(edge.target)))`, one target after the
      other. */
  function VisitAll(w: Workflow, call: Provider, ts: seq<string>, st: State): (r: State)
    ensures Extends(w, st, r)
    ensures ClosedSince(w, st, r)
    ensures Consistent(st) ==> Consistent(r)
    ensures forall t :: t in ts ==> t in r.visited || !Executable(w, t)
    ensures Consistent(st) ==>
              forall root ::
                (Justified(w, root, st) && (forall t :: t in ts ==> Entered(w, root, st, t))) ==>
                Justified(w, root, r)
    decreases |ExecIds(w) - st.visited|, |ts|
  {
    if ts == [] then st
    else
      var st1 := Visit(w, call, ts[0], st);
      UnvisitedMonotone(ExecIds(w), st.visited, st1.visited);
      var r := VisitAll(w, call, ts[1..], st1);
      ExtendsTrans(w, st, st1, r);
      ClosedSinceTrans(w, st, st1, r);
      NextTargetJustified(w, ts, st, st1, r);
      assert forall t :: t in ts ==> t == ts[0] || t in ts[1..];
      r
  }

  /** `n.type === 'input' || n.data.label.includes('Trigger')`: `None` when evaluating it
      throws, which happens for a non-input node without `data` or without a label. */
  function TriggerTest(n: Node): Option<bool> {
    if n.kind == "input" then Some(true)
    else match n.data
      case None => None
      case Some(d) =>
        match Label(d)
        case None => None
        case Some(labelText) => Some(Includes(labelText, "Trigger"))
  }

  /** The outcome of `workflow.nodes.find(...)` for the start node. */
  datatype StartChoice = StartAt(id: string) | NoTrigger | StartFault

  /** Node `k` is the first whose test is not `false`, and its test gives `v`. */
  ghost predicate FirstDecided(nodes: seq<Node>, k: int, v: Option<bool>) {
    && 0 <= k < |nodes|
    && TriggerTest(nodes[k]) == v
    && forall j :: 0 <= j < k ==> TriggerTest(nodes[j]) == Some(false)
  }

  /** The start node: the first node, in list order, that is of type `input` or whose label
      contains `Trigger`; a throwing test ends the search with a fault. */
  function ChooseStart(nodes: seq<Node>): (r: StartChoice)
    ensures forall k :: FirstDecided(nodes, k, Some(true)) ==> r == StartAt(nodes[k].id)
    ensures forall k :: FirstDecided(nodes, k, None) ==> r == StartFault
    ensures (forall k :: 0 <= k < |nodes| ==> TriggerTest(nodes[k]) == Some(false)) ==> r == NoTrigger
  {
    if nodes == [] then NoTrigger
    else match TriggerTest(nodes[0])
      case Some(true) => StartAt(nodes[0].id)
      case None => StartFault
      case Some(false) =>
        var r := ChooseStart(nodes[1..]);
        assert forall k :: 1 <= k < |nodes| ==> nodes[k] == nodes[1..][k - 1];
        assert forall k, v :: 1 <= k && FirstDecided(nodes, k, v) ==> FirstDecided(nodes[1..], k - 1, v);
        r
  }

  /** What a run leaves behind. */
  datatype RunReport = RunReport(start: StartChoice, final: State)

  /** Before any node runs the bookkeeping is consistent, and the start node is entered. */
  lemma FreshSound(w: Workflow, seed: Context, id: string)
    ensures Consistent(Fresh(seed))
    ensures Justified(w, id, Fresh(seed)) && Entered(w, id, Fresh(seed), id)
    ensures SlotsFrame(seed, Fresh(seed).ctx)
  {
  }

  /** `runEngine(workflow, initialData)`. */
  function RunEngine(w: Workflow, call: Provider, seed: Context): (r: RunReport)
    ensures r.start == ChooseStart(w.nodes)
    ensures !r.start.StartAt? ==> r.final == Fresh(seed)
    ensures SlotsFrame(seed, r.final.ctx)
    ensures Consistent(r.final)
    ensures r.final.visited <= ExecIds(w)
    ensures r.start.StartAt? && Executable(w, r.start.id) ==> r.start.id in r.final.visited
    ensures forall x :: x in r.final.visited && x !in r.final.halted ==> FannedOut(w, x, r.final.visited)
    ensures r.start.StartAt? ==> Justified(w, r.start.id, r.final)
    ensures r.start.StartAt? && Executable(w, r.start.id) ==>
              Dispatch(call, r.start.id, FindNode(w.nodes, r.start.id).value.data.value, InitialContext(seed)).effects
              <= r.final.effects
  {
    var start := ChooseStart(w.nodes);
    var st0 := Fresh(seed);
    match start
    case StartAt(id) =>
      FreshSound(w, seed, id);
      var st := Visit(w, call, id, st0);
      SlotsFrameTrans(seed, st0.ctx, st.ctx);
      assert Executable(w, id) ==>
               var first := Dispatch(call, id, FindNode(w.nodes, id).value.data.value, st0.ctx);
               st0.effects + first.effects == first.effects;
      RunReport(start, st)
    case _ => RunReport(start, st0)
  }

  /** Each node ran at most once in a run, and made each kind of external call at most once. */
  lemma RunAtMostOnce(w: Workflow, call: Provider, seed: Context)
    ensures var f := RunEngine(w, call, seed).final;
            && (forall i, j :: 0 <= i < j < |f.trace| ==> f.trace[i] != f.trace[j])
            && (forall i, j :: 0 <= i < j < |f.effects| && f.effects[i].node == f.effects[j].node ==>
                  f.effects[i] != f.effects[j])
  {
  }

  /** Returning early prunes the whole downstream subtree: every node that runs, other than the
      start node, is the target of an edge from a node that ran and did not return early. */
  lemma RunEntersThroughCompletedNodes(w: Workflow, call: Provider, seed: Context, x: string)
    requires ChooseStart(w.nodes).StartAt? && x != ChooseStart(w.nodes).id
    ensures var f := RunEngine(w, call, seed).final;
            x in f.visited ==> exists y :: y in f.visited && y !in f.halted && Edge(y, x) in w.edges
  {
    var r := RunEngine(w, call, seed);
    var f := r.final;
    if x in f.visited {
      var k :| 0 <= k < |f.trace| && f.trace[k] == x;
      assert EnteredAt(w, r.start.id, f, k);
      var j :| 0 <= j < k && f.trace[j] !in f.halted && Edge(f.trace[j], f.trace[k]) in w.edges;
      assert f.trace[j] in f.visited;
    }
  }

  /** A node whose handlers return early runs alone: none of its outgoing edges is followed. */
  lemma ReturnedNodePrunes(w: Workflow, call: Provider, id: string, st: State)
    requires id !in st.visited && Executable(w, id)
    requires Dispatch(call, id, FindNode(w.nodes, id).value.data.value, st.ctx).flow == Returned
    ensures Visit(w, call, id, st).trace == st.trace + [id]
    ensures Visit(w, call, id, st).visited == st.visited + {id}
  {
  }

  /** A node that completes without returning early, and has a single outgoing edge, hands the
      run to that edge's target with its own context and calls. */
  lemma SoleTargetRunsNext(w: Workflow, call: Provider, id: string, next: string, st: State)
    requires id !in st.visited && Executable(w, id) && Targets(w.edges, id) == [next]
    requires Dispatch(call, id, FindNode(w.nodes, id).value.data.value, st.ctx).flow != Returned
    ensures var step := Dispatch(call, id, FindNode(w.nodes, id).value.data.value, st.ctx);
            Visit(w, call, id, st) == Visit(w, call, next, AfterHandlers(st, id, step))
  {
    var step := Dispatch(call, id, FindNode(w.nodes, id).value.data.value, st.ctx);
    var st1 := AfterHandlers(st, id, step);
    assert Visit(w, call, id, st) == VisitAll(w, call, [next], st1);
    var r := Visit(w, call, next, st1);
    assert [next][1..] == [];
    assert VisitAll(w, call, [next][1..], r) == r;
  }

  /** A mail node reached with `aiResponse` set mails that text. */
  lemma MailNodeSendsAnswer(w: Workflow, call: Provider, g: string, dg: Data, st: State)
    requires g !in st.visited && FindNode(w.nodes, g).Some? && FindNode(w.nodes, g).value.data == Some(dg)
    requires MailsOnly(dg)
    requires Slot(st.ctx, AiSlot) != ""
    ensures GmailSend(g, Field(dg, "toEmail"), MailSubject, Slot(st.ctx, AiSlot)) in Visit(w, call, g, st).effects
  {
    var mail := GmailSend(g, Field(dg, "toEmail"), MailSubject, Slot(st.ctx, AiSlot));
    GmailNodeMails(call, g, dg, st.ctx);
    var r := Visit(w, call, g, st);
    assert st.effects + [mail] <= r.effects;
    assert (st.effects + [mail])[|st.effects|] == mail;
  }

  /** A node that completes with an answer in `aiResponse`, and whose only edge leads to a mail
      node, has that answer mailed. */
  lemma AnswerReachesMail(w: Workflow, call: Provider, h: string, g: string, dh: Data, dg: Data,
                          st: State, text: string)
    requires h != g && h !in st.visited && g !in st.visited
    requires FindNode(w.nodes, h).Some? && FindNode(w.nodes, h).value.data == Some(dh)
    requires FindNode(w.nodes, g).Some? && FindNode(w.nodes, g).value.data == Some(dg)
    requires Targets(w.edges, h) == [g]
    requires Dispatch(call, h, dh, st.ctx).flow != Returned
    requires Slot(Dispatch(call, h, dh, st.ctx).ctx, AiSlot) == text && text != ""
    requires MailsOnly(dg)
    ensures GmailSend(g, Field(dg, "toEmail"), MailSubject, text) in Visit(w, call, h, st).effects
  {
    var st1 := AfterHandlers(st, h, Dispatch(call, h, dh, st.ctx));
    assert GmailSend(g, Field(dg, "toEmail"), MailSubject, text) in Visit(w, call, g, st1).effects by {
      assert g !in st1.visited;
      MailNodeSendsAnswer(w, call, g, dg, st1);
    }
    SoleTargetRunsNext(w, call, h, g, st);
  }

  /** A run with a start node is the visit of that node from the fresh state. */
  lemma RunVisitsStart(w: Workflow, call: Provider, seed: Context, t: string)
    requires ChooseStart(w.nodes) == StartAt(t)
    ensures RunEngine(w, call, seed).final == Visit(w, call, t, Fresh(seed))
  {
  }

  /** Visiting, from the fresh state, a node `t` that selects no block and whose only edge leads
      to `h`, whose only edge leads to the mail node `g`, mails the answer `h` leaves in
      `aiResponse` when run on the initial context. */
  lemma FreshVisitMailsAnswer(w: Workflow, call: Provider, seed: Context, t: string, h: string, g: string,
                              dt: Data, dh: Data, dg: Data, text: string)
    requires t != h && h != g && t != g
    requires FindNode(w.nodes, t).Some? && FindNode(w.nodes, t).value.data == Some(dt)
    requires FindNode(w.nodes, h).Some? && FindNode(w.nodes, h).value.data == Some(dh)
    requires FindNode(w.nodes, g).Some? && FindNode(w.nodes, g).value.data == Some(dg)
    requires Targets(w.edges, t) == [h] && Targets(w.edges, h) == [g]
    requires SelectsNothing(dt)
    requires Dispatch(call, h, dh, InitialContext(seed)).flow != Returned
    requires Slot(Dispatch(call, h, dh, InitialContext(seed)).ctx, AiSlot) == text && text != ""
    requires MailsOnly(dg)
    ensures GmailSend(g, Field(dg, "toEmail"), MailSubject, text) in Visit(w, call, t, Fresh(seed)).effects
  {
    var st1 := AfterHandlers(Fresh(seed), t, Dispatch(call, t, dt, InitialContext(seed)));
    assert GmailSend(g, Field(dg, "toEmail"), MailSubject, text) in Visit(w, call, h, st1).effects by {
      UnselectedNodePasses(call, t, dt, InitialContext(seed));
      assert st1.visited == {t} && st1.ctx == InitialContext(seed);
      AnswerReachesMail(w, call, h, g, dh, dg, st1, text);
    }
    assert Visit(w, call, t, Fresh(seed)) == Visit(w, call, h, st1) by {
      UnselectedNodePasses(call, t, dt, InitialContext(seed));
      SoleTargetRunsNext(w, call, t, h, Fresh(seed));
    }
  }


  /** A run of a workflow whose first node is an input node starts there. */
  lemma InputNodeStarts(w: Workflow, t: string, dt: Data)
    requires |w.nodes| > 0 && w.nodes[0] == Node(t, "input", Some(dt))
    ensures ChooseStart(w.nodes) == StartAt(t)
  {
    assert FirstDecided(w.nodes, 0, Some(true));
  }

  /** Where each node of a three-node list with distinct ids is found. */
  lemma ThreeNodesFound(nodes: seq<Node>, t: string, h: string, g: string)
    requires |nodes| == 3 && nodes[0].id == t && nodes[1].id == h && nodes[2].id == g
    requires t != h && h != g && t != g
    ensures FindNode(nodes, t) == Some(nodes[0])
    ensures FindNode(nodes, h) == Some(nodes[1])
    ensures FindNode(nodes, g) == Some(nodes[2])
  {
    assert nodes[1..][1..] == [nodes[2]];
  }

  /** Where each edge of the chain t -> h -> g leads. */
  lemma ChainEdges(edges: seq<Edge>, t: string, h: string, g: string)
    requires edges == [Edge(t, h), Edge(h, g)] && t != h
    ensures Targets(edges, t) == [h] && Targets(edges, h) == [g]
  {
    assert edges[1..] == [Edge(h, g)] && edges[1..][1..] == [];
  }

  /** The data a run fetches reaches the model, and the model's answer reaches the mail: in a
      workflow trigger -> fetch-and-ask -> mail, a non-empty fetch and a resolved model call make
      the run mail the generated text to the mail node's `toEmail`. */
  lemma GeneratedTextIsMailed(w: Workflow, call: Provider, seed: Context,
                              t: string, h: string, g: string, dt: Data, dh: Data, dg: Data,
                              kh: string, kg: string, body: string, text: string)
    requires t != h && h != g && t != g
    requires w.nodes == [Node(t, "input", Some(dt)), Node(h, kh, Some(dh)), Node(g, kg, Some(dg))]
    requires w.edges == [Edge(t, h), Edge(h, g)]
    requires SelectsNothing(dt)
    requires FetchesAndAsks(dh)
    requires call(HttpGet(h, Field(dh, "url"), ApiHeaders(Field(dh, "apiKey")))) == Some(body) && body != ""
    requires call(GeminiCall(h, JsBuildPrompt(Field(dh, "instruction"), body))) == Some(text) && text != ""
    requires MailsOnly(dg)
    ensures GmailSend(g, Field(dg, "toEmail"), MailSubject, text) in RunEngine(w, call, seed).final.effects
  {
    InputNodeStarts(w, t, dt);
    ThreeNodesFound(w.nodes, t, h, g);
    ChainEdges(w.edges, t, h, g);
    FetchedAnswerStored(call, h, dh, InitialContext(seed), body, text);
    FreshVisitMailsAnswer(w, call, seed, t, h, g, dt, dh, dg, text);
    RunVisitsStart(w, call, seed, t);
  }

}

=== FILE: handlers.dfy ===
/** One node's handlers (the body of the `try` in `executeNode`): the HTTP, AI, WhatsApp and
    Gmail blocks, selected by substrings of the node label and run in that order against the
    shared run context. External calls are abstracted as a provider oracle. */
module Handlers {
  import opened Wrappers
  import opened Strings
  import opened WorkflowModel
  import opened Helpers

  /** The run context: `initialData` plus the two slots the handlers write. */
  type Context = map<string, string>

  const AiSlot: string := "aiResponse"
  const DataSlot: string := "externalData"

  /** What an HTTP failure stores in `externalData`. */
  const FetchErrorText: string := "Error: Check your URL or API Key."
  const MailSubject: string := "Workflow Update"

  /** `context[k]`, with `undefined` read as the (equally falsy) empty string. */
  function Slot(ctx: Context, k: string): string {
    if k in ctx then ctx[k] else ""
  }

  /** `b` agrees with `a` on every key except the two handler slots. */
  ghost predicate SlotsFrame(a: Context, b: Context) {
    forall k :: k != AiSlot && k != DataSlot ==> (k in a <==> k in b) && (k in a ==> a[k] == b[k])
  }

  lemma SlotsFrameTrans(a: Context, b: Context, c: Context)
    requires SlotsFrame(a, b) && SlotsFrame(b, c)
    ensures SlotsFrame(a, c)
  {
  }

  /** One call into an external service, tagged with the node that made it. */
  datatype Effect =
    | HttpGet(node: string, url: Option<string>, headers: map<string, string>)
    | GeminiCall(node: string, prompt: string)
    | WhatsAppSend(node: string, to: string, body: string)
    | GmailSend(node: string, recipient: Option<string>, subject: string, text: string)

  /** The position of a handler in the fixed dispatch order. */
  function Rank(e: Effect): (r: nat)
    ensures r < 4
  {
    match e
    case HttpGet(_, _, _) => 0
    case GeminiCall(_, _) => 1
    case WhatsAppSend(_, _, _) => 2
    case GmailSend(_, _, _, _) => 3
  }

  /** The outcome of an external call: `Some(text)` when it resolves (response body or generated
      text; the senders' payload is ignored), `None` when it rejects or throws. Effects carry the
      node id, so each node's calls may have their own outcome. */
  type Provider = Effect -> Option<string>

  /** How control leaves a block: normally, through an early `return` (which also skips the
      fan-out), or through an exception caught by the `catch` around the handlers. */
  datatype Flow = Continue | Returned | Caught

  datatype Step = Step(ctx: Context, effects: seq<Effect>, flow: Flow)

  /** The HTTP block. Its own `try` turns every failure into the error text. */
  function HttpHandler(call: Provider, id: string, d: Data, ctx: Context): (s: Step)
    ensures s.flow == Continue
    ensures s.effects == [HttpGet(id, Field(d, "url"), ApiHeaders(Field(d, "apiKey")))]
    ensures SlotsFrame(ctx, s.ctx) && Slot(s.ctx, AiSlot) == Slot(ctx, AiSlot)
    ensures call(s.effects[0]).Some? ==> Slot(s.ctx, DataSlot) == call(s.effects[0]).value
    ensures call(s.effects[0]).None? ==> Slot(s.ctx, DataSlot) == FetchErrorText
  {
    var e := HttpGet(id, Field(d, "url"), ApiHeaders(Field(d, "apiKey")));
    Step(ctx[DataSlot := call(e).GetOr(FetchErrorText)], [e], Continue)
  }

  /** The AI block: skipped, with an early return, while `externalData` is empty. */
  function AiHandler(call: Provider, id: string, d: Data, ctx: Context): (s: Step)
    ensures s.flow == Returned <==> Slot(ctx, DataSlot) == ""
    ensures s.flow == Returned ==> s.ctx == ctx && s.effects == []
    ensures s.flow != Returned ==>
              && s.flow == Continue
              && s.effects == [GeminiCall(id, JsBuildPrompt(Field(d, "instruction"), Slot(ctx, DataSlot)))]
              && (call(s.effects[0]).Some? ==> Slot(s.ctx, AiSlot) == call(s.effects[0]).value)
              && (call(s.effects[0]).None? ==> s.ctx == ctx)
    ensures SlotsFrame(ctx, s.ctx) && Slot(s.ctx, DataSlot) == Slot(ctx, DataSlot)
  {
    if Slot(ctx, DataSlot) == "" then Step(ctx, [], Returned)
    else
      var e := GeminiCall(id, JsBuildPrompt(Field(d, "instruction"), Slot(ctx, DataSlot)));
      match call(e)
      case Some(text) => Step(ctx[AiSlot := text], [e], Continue)
      case None => Step(ctx, [e], Continue)
  }

  /** The WhatsApp block: skipped, with an early return, while `aiResponse` is empty; a missing
      `toPhone` or a failed send throws. */
  function WhatsAppHandler(call: Provider, id: string, d: Data, ctx: Context): (s: Step)
    ensures s.ctx == ctx
    ensures s.flow == Returned <==> Slot(ctx, AiSlot) == ""
    ensures s.flow == Returned ==> s.effects == []
    ensures s.flow != Returned && Field(d, "toPhone").None? ==> s.flow == Caught && s.effects == []
    ensures s.flow != Returned && Field(d, "toPhone").Some? ==>
              && s.effects == [WhatsAppSend(id, "whatsapp:" + SanitizePhone(Field(d, "toPhone").value),
                                            CapBody(Slot(ctx, AiSlot)))]
              && (s.flow == Continue <==> call(s.effects[0]).Some?)
  {
    if Slot(ctx, AiSlot) == "" then Step(ctx, [], Returned)
    else match Field(d, "toPhone")
      case None => Step(ctx, [], Caught)
      case Some(phone) =>
        var e := WhatsAppSend(id, "whatsapp:" + SanitizePhone(phone), CapBody(Slot(ctx, AiSlot)));
        Step(ctx, [e], if call(e).Some? then Continue else Caught)
  }

  /** The Gmail block: skipped, with an early return, while `aiResponse` is empty; a failed
      send throws. The whole generated text is mailed. */
  function GmailHandler(call: Provider, id: string, d: Data, ctx: Context): (s: Step)
    ensures s.ctx == ctx
    ensures s.flow == Returned <==> Slot(ctx, AiSlot) == ""
    ensures s.flow == Returned ==> s.effects == []
    ensures s.flow != Returned ==>
              && s.effects == [GmailSend(id, Field(d, "toEmail"), MailSubject, Slot(ctx, AiSlot))]
              && (s.flow == Continue <==> call(s.effects[0]).Some?)
  {
    if Slot(ctx, AiSlot) == "" then Step(ctx, [], Returned)
    else
      var e := GmailSend(id, Field(d, "toEmail"), MailSubject, Slot(ctx, AiSlot));
      Step(ctx, [e], if call(e).Some? then Continue else Caught)
  }

  /** Runs `next` after `prev` completed normally. */
  function Chain(prev: Step, next: Step): Step {
    Step(next.ctx, prev.effects + next.effects, next.flow)
  }

  /** All effects come from node `id`, at most one per handler, in dispatch order. */
  predicate OrderedFrom(effects: seq<Effect>, id: string) {
    && (forall k :: 0 <= k < |effects| ==> effects[k].node == id)
    && (forall i, j :: 0 <= i < j < |effects| ==> Rank(effects[i]) < Rank(effects[j]))
  }

  /** Every effect comes from a handler that runs before position `bound`. */
  predicate RanksBelow(effects: seq<Effect>, bound: nat) {
    forall k :: 0 <= k < |effects| ==> Rank(effects[k]) < bound
  }

  /** The label word that selects the handler at position `rank`. */
  function Word(rank: nat): string
    requires rank < 4
  {
    ["HTTP", "AI", "WhatsApp", "Gmail"][rank]
  }

  /** Some call in `effects` comes from the handler at position `rank`. */
  predicate Ran(effects: seq<Effect>, rank: nat) {
    exists k :: 0 <= k < |effects| && Rank(effects[k]) == rank
  }

  /** Every call comes from a block whose word is in the label, and while control still flows
      normally, every block before `bound` whose word is in the label has made its call. */
  predicate Selected(labelText: string, effects: seq<Effect>, flow: Flow, bound: nat)
    requires bound <= 4
  {
    && (forall k :: 0 <= k < |effects| ==> Includes(labelText, Word(Rank(effects[k]))))
    && (flow == Continue ==> forall r :: 0 <= r < bound && Includes(labelText, Word(r)) ==> Ran(effects, r))
  }

  /** Running the block at position `rank` after normally completed blocks keeps `Selected`. */
  lemma ChainSelected(labelText: string, prev: Step, next: Step, rank: nat)
    requires rank < 4 && prev.flow == Continue && Includes(labelText, Word(rank))
    requires Selected(labelText, prev.effects, prev.flow, rank)
    requires forall k :: 0 <= k < |next.effects| ==> Rank(next.effects[k]) == rank
    requires next.flow == Continue ==> |next.effects| == 1
    ensures Selected(labelText, Chain(prev, next).effects, Chain(prev, next).flow, rank + 1)
  {
    var es := Chain(prev, next).effects;
    assert forall k :: 0 <= k < |prev.effects| ==> es[k] == prev.effects[k];
    assert forall k :: |prev.effects| <= k < |es| ==> es[k] == next.effects[k - |prev.effects|];
    if next.flow == Continue {
      assert Rank(es[|prev.effects|]) == rank;
      forall r | 0 <= r < rank + 1 && Includes(labelText, Word(r)) ensures Ran(es, r) {
        if r < rank {
          var k :| 0 <= k < |prev.effects| && Rank(prev.effects[k]) == r;
          assert es[k] == prev.effects[k];
        }
      }
    }
  }

  /** Skipping the block at position `rank` keeps `Selected` when its word is not in the label
      or control no longer flows normally. */
  lemma SkipSelected(labelText: string, prev: Step, rank: nat)
    requires rank < 4 && (prev.flow != Continue || !Includes(labelText, Word(rank)))
    requires Selected(labelText, prev.effects, prev.flow, rank)
    ensures Selected(labelText, prev.effects, prev.flow, rank + 1)
  {
  }

  /** Appending the calls of the block at position `rank` to those of earlier blocks of the same
      node keeps them in dispatch order. */
  lemma ChainOrdered(prev: Step, next: Step, id: string, rank: nat)
    requires OrderedFrom(prev.effects, id) && RanksBelow(prev.effects, rank)
    requires OrderedFrom(next.effects, id) && |next.effects| <= 1
    requires forall k :: 0 <= k < |next.effects| ==> Rank(next.effects[k]) == rank
    ensures OrderedFrom(Chain(prev, next).effects, id) && RanksBelow(Chain(prev, next).effects, rank + 1)
    ensures prev.effects <= Chain(prev, next).effects
  {
    var es := Chain(prev, next).effects;
    assert forall k :: 0 <= k < |prev.effects| ==> es[k] == prev.effects[k];
    assert forall k :: |prev.effects| <= k < |es| ==> es[k] == next.effects[k - |prev.effects|];
  }

  /** The handler at position `rank` of the dispatch order. */
  function Handler(call: Provider, id: string, d: Data, ctx: Context, rank: nat): (s: Step)
    requires rank < 4
    ensures OrderedFrom(s.effects, id) && |s.effects| <= 1
    ensures forall k :: 0 <= k < |s.effects| ==> Rank(s.effects[k]) == rank
    ensures s.flow == Continue ==> |s.effects| == 1
    ensures SlotsFrame(ctx, s.ctx)
  {
    if rank == 0 then HttpHandler(call, id, d, ctx)
    else if rank == 1 then AiHandler(call, id, d, ctx)
    else if rank == 2 then WhatsAppHandler(call, id, d, ctx)
    else GmailHandler(call, id, d, ctx)
  }

  /** The `if (label.includes(word))` block at position `rank`, reached only when every earlier
      block completed normally. */
  function Stage(call: Provider, id: string, d: Data, labelText: string, prev: Step, rank: nat): (s: Step)
    requires rank < 4
    requires OrderedFrom(prev.effects, id) && RanksBelow(prev.effects, rank)
    requires Selected(labelText, prev.effects, prev.flow, rank)
    ensures OrderedFrom(s.effects, id) && RanksBelow(s.effects, rank + 1)
    ensures Selected(labelText, s.effects, s.flow, rank + 1)
    ensures prev.effects <= s.effects
    ensures SlotsFrame(prev.ctx, s.ctx)
    ensures prev.flow != Continue ==> s == prev
    ensures !Includes(labelText, Word(rank)) ==> s == prev
    ensures prev.flow == Continue && Includes(labelText, Word(rank)) ==>
              s == Chain(prev, Handler(call, id, d, prev.ctx, rank))
  {
    if prev.flow == Continue && Includes(labelText, Word(rank)) then
      var next := Handler(call, id, d, prev.ctx, rank);
      ChainOrdered(prev, next, id, rank);
      ChainSelected(labelText, prev, next, rank);
      Chain(prev, next)
    else
      SkipSelected(labelText, prev, rank);
      prev
  }

  /** The handlers of one node, in the order HTTP, AI, WhatsApp, Gmail. A block runs when its
      word occurs in the label and every earlier block completed normally. A node without a
      label throws on `label.includes`, which is caught. */
  function Dispatch(call: Provider, id: string, d: Data, ctx: Context): (s: Step)
    ensures SlotsFrame(ctx, s.ctx)
    ensures OrderedFrom(s.effects, id)
    ensures Label(d).None? ==> s == Step(ctx, [], Caught)
    ensures Label(d).Some? ==>
              forall k :: 0 <= k < |s.effects| ==> Includes(Label(d).value, Word(Rank(s.effects[k])))
    ensures Label(d).Some? && s.flow == Continue ==>
              forall r :: 0 <= r < 4 && Includes(Label(d).value, Word(r)) ==> Ran(s.effects, r)
    ensures Label(d).Some? && Includes(Label(d).value, "HTTP") ==>
              |s.effects| >= 1 && s.effects[0] == HttpGet(id, Field(d, "url"), ApiHeaders(Field(d, "apiKey")))
  {
    match Label(d)
    case None => Step(ctx, [], Caught)
    case Some(labelText) =>
      var s1 := Stage(call, id, d, labelText, Step(ctx, [], Continue), 0);
      var s2 := Stage(call, id, d, labelText, s1, 1);
      var s3 := Stage(call, id, d, labelText, s2, 2);
      Stage(call, id, d, labelText, s3, 3)
  }

  /** The step after the HTTP and AI blocks of a labelled node, before the senders. */
  function UpToAi(call: Provider, id: string, d: Data, ctx: Context): Step
    requires Label(d).Some?
  {
    var labelText := Label(d).value;
    Stage(call, id, d, labelText, Stage(call, id, d, labelText, Step(ctx, [], Continue), 0), 1)
  }

  /** The senders only add calls; when the label selects neither, they change nothing. */
  lemma SendersAfterAi(call: Provider, id: string, d: Data, ctx: Context)
    requires Label(d).Some?
    ensures UpToAi(call, id, d, ctx).effects <= Dispatch(call, id, d, ctx).effects
    ensures !Includes(Label(d).value, "WhatsApp") && !Includes(Label(d).value, "Gmail") ==>
              Dispatch(call, id, d, ctx) == UpToAi(call, id, d, ctx)
  {
    var labelText := Label(d).value;
    var s3 := Stage(call, id, d, labelText, UpToAi(call, id, d, ctx), 2);
    assert Dispatch(call, id, d, ctx) == Stage(call, id, d, labelText, s3, 3);
  }

  /** With HTTP and AI in the label, both blocks run: the fetch, then the AI block on the
      context the fetch left. */
  lemma FetchThenAskRuns(call: Provider, id: string, d: Data, ctx: Context)
    requires Label(d).Some? && Includes(Label(d).value, "HTTP") && Includes(Label(d).value, "AI")
    ensures var http := HttpHandler(call, id, d, ctx);
            UpToAi(call, id, d, ctx) == Chain(Chain(Step(ctx, [], Continue), http), AiHandler(call, id, d, http.ctx))
  {
    var s1 := Stage(call, id, d, Label(d).value, Step(ctx, [], Continue), 0);
    assert s1 == Chain(Step(ctx, [], Continue), HttpHandler(call, id, d, ctx));
  }

  /** The first two calls of a node whose label selects HTTP and AI: the fetch, then the model
      call on whatever the fetch left in `externalData` (the body, or the error text). */
  lemma FetchThenAsk(call: Provider, id: string, d: Data, ctx: Context)
    requires Label(d).Some? && Includes(Label(d).value, "HTTP") && Includes(Label(d).value, "AI")
    requires call(HttpGet(id, Field(d, "url"), ApiHeaders(Field(d, "apiKey")))) != Some("")
    ensures var e := HttpGet(id, Field(d, "url"), ApiHeaders(Field(d, "apiKey")));
            var data := call(e).GetOr(FetchErrorText);
            && UpToAi(call, id, d, ctx).effects == [e, GeminiCall(id, JsBuildPrompt(Field(d, "instruction"), data))]
            && UpToAi(call, id, d, ctx).effects <= Dispatch(call, id, d, ctx).effects
  {
    FetchThenAskRuns(call, id, d, ctx);
    SendersAfterAi(call, id, d, ctx);
  }

  /** An AI node (without HTTP in its label) finding `externalData` empty makes no call,
      changes nothing and returns early. */
  lemma AiGate(call: Provider, id: string, d: Data, ctx: Context)
    requires Label(d).Some? && Includes(Label(d).value, "AI") && !Includes(Label(d).value, "HTTP")
    requires Slot(ctx, DataSlot) == ""
    ensures Dispatch(call, id, d, ctx) == Step(ctx, [], Returned)
  {
  }

  /** A WhatsApp or Gmail node (without AI in its label) finding `aiResponse` empty sends nothing
      and returns early. */
  lemma SendGate(call: Provider, id: string, d: Data, ctx: Context)
    requires Label(d).Some? && !Includes(Label(d).value, "AI")
    requires Includes(Label(d).value, "WhatsApp") || Includes(Label(d).value, "Gmail")
    requires Slot(ctx, AiSlot) == ""
    ensures Dispatch(call, id, d, ctx).flow == Returned
    ensures forall e :: e in Dispatch(call, id, d, ctx).effects ==> e.HttpGet?
  {
  }

  /** A failed fetch leaves the error text in `externalData`, so an AI block in the same node
      still calls the model, with the error text as its data. */
  lemma FetchFailureFeedsAi(call: Provider, id: string, d: Data, ctx: Context)
    requires Label(d).Some? && Includes(Label(d).value, "HTTP") && Includes(Label(d).value, "AI")
    requires call(HttpGet(id, Field(d, "url"), ApiHeaders(Field(d, "apiKey")))).None?
    ensures GeminiCall(id, JsBuildPrompt(Field(d, "instruction"), FetchErrorText))
            in Dispatch(call, id, d, ctx).effects
  {
    FetchThenAsk(call, id, d, ctx);
    var es := Dispatch(call, id, d, ctx).effects;
    assert es[1] == GeminiCall(id, JsBuildPrompt(Field(d, "instruction"), FetchErrorText));
  }

  /** A failed WhatsApp send throws past the Gmail block of the same node: no mail is sent and
      the exception is caught. */
  lemma WhatsAppFailureSkipsGmail(call: Provider, id: string, d: Data, ctx: Context)
    requires Label(d).Some? && !Includes(Label(d).value, "HTTP") && !Includes(Label(d).value, "AI")
    requires Includes(Label(d).value, "WhatsApp") && Includes(Label(d).value, "Gmail")
    requires Slot(ctx, AiSlot) != "" && Field(d, "toPhone").Some?
    requires call(WhatsAppSend(id, "whatsapp:" + SanitizePhone(Field(d, "toPhone").value),
                               CapBody(Slot(ctx, AiSlot)))).None?
    ensures Dispatch(call, id, d, ctx).flow == Caught
    ensures forall e :: e in Dispatch(call, id, d, ctx).effects ==> !e.GmailSend?
  {
  }

  /** A Gmail node (without HTTP, AI or WhatsApp in its label) finding `aiResponse` set mails
      it: one mail to `toEmail` with the full text, and the node completes normally exactly
      when the send succeeds. */
  lemma GmailNodeMails(call: Provider, id: string, d: Data, ctx: Context)
    requires Label(d).Some? && Includes(Label(d).value, "Gmail")
    requires !Includes(Label(d).value, "HTTP") && !Includes(Label(d).value, "AI")
    requires !Includes(Label(d).value, "WhatsApp")
    requires Slot(ctx, AiSlot) != ""
    ensures Dispatch(call, id, d, ctx).effects
            == [GmailSend(id, Field(d, "toEmail"), MailSubject, Slot(ctx, AiSlot))]
    ensures Dispatch(call, id, d, ctx).flow == Continue
            <==> call(GmailSend(id, Field(d, "toEmail"), MailSubject, Slot(ctx, AiSlot))).Some?
  {
  }

  /** A successful non-empty fetch is what an AI block in the same node sends to the model. */
  lemma FetchFeedsAi(call: Provider, id: string, d: Data, ctx: Context)
    requires Label(d).Some? && Includes(Label(d).value, "HTTP") && Includes(Label(d).value, "AI")
    requires call(HttpGet(id, Field(d, "url"), ApiHeaders(Field(d, "apiKey")))).Some?
    requires call(HttpGet(id, Field(d, "url"), ApiHeaders(Field(d, "apiKey")))).value != ""
    ensures var body := call(HttpGet(id, Field(d, "url"), ApiHeaders(Field(d, "apiKey")))).value;
            Dispatch(call, id, d, ctx).effects[..2]
            == [HttpGet(id, Field(d, "url"), ApiHeaders(Field(d, "apiKey"))),
                GeminiCall(id, JsBuildPrompt(Field(d, "instruction"), body))]
  {
    FetchThenAsk(call, id, d, ctx);
  }

  /** The label, if any, selects none of the four blocks. */
  predicate SelectsNothing(d: Data) {
    Label(d).Some? ==>
      && !Includes(Label(d).value, "HTTP") && !Includes(Label(d).value, "AI")
      && !Includes(Label(d).value, "WhatsApp") && !Includes(Label(d).value, "Gmail")
  }

  /** The label selects exactly the HTTP and AI blocks. */
  predicate FetchesAndAsks(d: Data) {
    && Label(d).Some? && Includes(Label(d).value, "HTTP") && Includes(Label(d).value, "AI")
    && !Includes(Label(d).value, "WhatsApp") && !Includes(Label(d).value, "Gmail")
  }

  /** The label selects exactly the Gmail block. */
  predicate MailsOnly(d: Data) {
    && Label(d).Some? && Includes(Label(d).value, "Gmail")
    && !Includes(Label(d).value, "HTTP") && !Includes(Label(d).value, "AI")
    && !Includes(Label(d).value, "WhatsApp")
  }

  /** A node whose label selects none of the four blocks makes no call and changes nothing; it
      does not return early, so its edges are followed. */
  lemma UnselectedNodePasses(call: Provider, id: string, d: Data, ctx: Context)
    requires SelectsNothing(d)
    ensures Dispatch(call, id, d, ctx).flow != Returned
    ensures Dispatch(call, id, d, ctx).effects == [] && Dispatch(call, id, d, ctx).ctx == ctx
  {
  }

  /** A node whose label selects exactly the HTTP and AI blocks, with a non-empty fetch and a
      model call that resolves, completes normally with the generated text in `aiResponse`. */
  lemma FetchedAnswerStored(call: Provider, id: string, d: Data, ctx: Context, body: string, text: string)
    requires FetchesAndAsks(d)
    requires call(HttpGet(id, Field(d, "url"), ApiHeaders(Field(d, "apiKey")))) == Some(body) && body != ""
    requires call(GeminiCall(id, JsBuildPrompt(Field(d, "instruction"), body))) == Some(text)
    ensures Dispatch(call, id, d, ctx).flow == Continue
    ensures Slot(Dispatch(call, id, d, ctx).ctx, AiSlot) == text
    ensures Dispatch(call, id, d, ctx).effects
            == [HttpGet(id, Field(d, "url"), ApiHeaders(Field(d, "apiKey"))),
                GeminiCall(id, JsBuildPrompt(Field(d, "instruction"), body))]
  {
    FetchThenAskRuns(call, id, d, ctx);
    SendersAfterAi(call, id, d, ctx);
    var http := HttpHandler(call, id, d, ctx);
    assert Slot(http.ctx, DataSlot) == body;
    var ai := AiHandler(call, id, d, http.ctx);
    assert ai.flow == Continue && Slot(ai.ctx, AiSlot) == text;
  }
}

=== FILE: helpers.dfy ===
/** The pure string work done inside the node handlers: the phone sanitiser and body cap of the
    WhatsApp handler, the prompt of the AI handler and the headers of the HTTP handler. */
module Helpers {
  import opened Wrappers
  import opened Strings

  /** Characters kept by `replace(/[^\d+]/g, '')`; `\d` is ASCII 0-9. */
  predicate PhoneChar(c: char) {
    '0' <= c <= '9' || c == '+'
  }

  /** `toPhone.replace(/[^\d+]/g, '')`: drops every character that is not a digit or `+`. */
  function SanitizePhone(s: string): (r: string)
    ensures forall k :: 0 <= k < |r| ==> PhoneChar(r[k])
    ensures IsSubsequence(r, s)
    ensures forall c :: multiset(r)[c] == if PhoneChar(c) then multiset(s)[c] else 0
    decreases |s|
  {
    if s == [] then []
    else
      var rest := SanitizePhone(s[1..]);
      assert s == [s[0]] + s[1..];
      assert multiset(s) == multiset{s[0]} + multiset(s[1..]);
      if PhoneChar(s[0]) then
        var r := [s[0]] + rest;
        assert r[1..] == rest;
        assert multiset(r) == multiset{s[0]} + multiset(rest);
        r
      else
        assert rest == [] || rest[0] != s[0];
        rest
  }

  /** A number that is already clean is left as it is. */
  lemma {:induction false} SanitizeClean(s: string)
    requires forall k :: 0 <= k < |s| ==> PhoneChar(s[k])
    ensures SanitizePhone(s) == s
    decreases |s|
  {
    if s != [] {
      SanitizeClean(s[1..]);
    }
  }

  /** Sanitising twice is the same as sanitising once. */
  lemma SanitizeIdempotent(s: string)
    ensures SanitizePhone(SanitizePhone(s)) == SanitizePhone(s)
  {
    SanitizeClean(SanitizePhone(s));
  }

  /** The WhatsApp body limit. */
  const BodyLimit: nat := 1550

  /** `aiResponse.substring(0, 1550)`. */
  function CapBody(text: string): (r: string)
    ensures r <= text
    ensures |r| == if |text| < BodyLimit then |text| else BodyLimit
    ensures |text| <= BodyLimit ==> r == text
  {
    Prefix(text, BodyLimit)
  }

  /** Capping an already capped body changes nothing. */
  lemma CapBodyIdempotent(text: string)
    ensures CapBody(CapBody(text)) == CapBody(text)
  {
    PrefixIdempotent(text, BodyLimit);
  }

  const DefaultPrompt: string := "Analyze this:"
  const Placeholder: string := "{{externalData}}"

  /** `instruction || "Analyze this:"`: an absent or empty instruction is falsy. */
  function PromptTemplate(instruction: Option<string>): (r: string)
    ensures instruction.Some? && instruction.value != "" ==> r == instruction.value
    ensures instruction.None? || instruction.value == "" ==> r == DefaultPrompt
    ensures r != ""
  {
    if instruction.Some? && instruction.value != "" then instruction.value else DefaultPrompt
  }

  /** The prompt the code evidently intends: the template with its first `{{externalData}}`
      replaced by the fetched data, inserted literally. It differs from the prompt actually
      sent (`JsBuildPrompt`) only when the data contains `$`. */
  function BuildPrompt(instruction: Option<string>, data: string): (r: string)
    ensures var t := PromptTemplate(instruction);
            && ((forall j :: !OccursAt(t, Placeholder, j)) ==> r == t)
            && (forall i :: FirstOccurrence(t, Placeholder, i) ==>
                  r == t[..i] + data + t[i + |Placeholder|..])
  {
    ReplaceFirst(PromptTemplate(instruction), Placeholder, data)
  }

  /** The prompt sent to the model, as `prompt.replace('{{externalData}}', externalData)`
      builds it: the template with its first placeholder replaced by the fetched data after
      JavaScript's expansion of the `$`-patterns in it. */
  function JsBuildPrompt(instruction: Option<string>, data: string): (r: string)
    ensures var t := PromptTemplate(instruction);
            && ((forall j :: !OccursAt(t, Placeholder, j)) ==> r == t)
            && (forall i :: FirstOccurrence(t, Placeholder, i) ==>
                  r == t[..i] + ExpandReplacement(data, t[..i], Placeholder, t[i + |Placeholder|..])
                       + t[i + |Placeholder|..])
  {
    JsReplaceFirst(PromptTemplate(instruction), Placeholder, data)
  }

  /** Fetched data without `$` reaches the model exactly as the literal substitution puts it. */
  lemma JsPromptLiteralWithoutDollar(instruction: Option<string>, data: string)
    requires '$' !in data
    ensures JsBuildPrompt(instruction, data) == BuildPrompt(instruction, data)
  {
    JsReplaceAgreesWithoutDollar(PromptTemplate(instruction), Placeholder, data);
  }

  /** The default prompt has no placeholder, so with no instruction the fetched data is not
      part of the prompt at all, whatever it contains. */
  lemma DefaultPromptOmitsData(instruction: Option<string>, data: string)
    requires instruction.None? || instruction.value == ""
    ensures JsBuildPrompt(instruction, data) == DefaultPrompt
    ensures BuildPrompt(instruction, data) == DefaultPrompt
  {
  }

  /** A template that starts with the placeholder: the data takes its place, ahead of the rest. */
  lemma PlaceholderFirstFills(rest: string, data: string)
    ensures BuildPrompt(Some(Placeholder + rest), data) == data + rest
    ensures JsBuildPrompt(Some(Placeholder + rest), data)
            == ExpandReplacement(data, "", Placeholder, rest) + rest
  {
    assert PromptTemplate(Some(Placeholder + rest)) == Placeholder + rest;
    ReplaceAtStart(Placeholder, rest, data);
    JsReplaceAtStart(Placeholder, rest, data);
  }

  /** Only the first placeholder is filled: after the data, the rest of the template reaches
      the model unchanged, so a later placeholder is sent unreplaced, in the prompt as sent and
      as intended. */
  lemma SecondPlaceholderKept(rest: string, data: string)
    requires Includes(rest, Placeholder)
    ensures BuildPrompt(Some(Placeholder + rest), data) == data + rest
    ensures JsBuildPrompt(Some(Placeholder + rest), data)
            == ExpandReplacement(data, "", Placeholder, rest) + rest
    ensures Includes(BuildPrompt(Some(Placeholder + rest), data), Placeholder)
    ensures Includes(JsBuildPrompt(Some(Placeholder + rest), data), Placeholder)
  {
    PlaceholderFirstFills(rest, data);
    var i :| OccursAt(rest, Placeholder, i);
    OccursAfterPrefix(data, rest, Placeholder, i);
    OccursAfterPrefix(ExpandReplacement(data, "", Placeholder, rest), rest, Placeholder, i);
  }

  /** In the template "Price: {{externalData}}" the placeholder first occurs at index 7. */
  lemma PlaceholderAtSeven()
    ensures FirstOccurrence("Price: {{externalData}}", Placeholder, 7)
  {
    var t := "Price: {{externalData}}";
    assert t[7..7 + |Placeholder|] == Placeholder;
    forall j | 0 <= j < 7 ensures !OccursAt(t, Placeholder, j) {
      assert t[j] != '{';
      assert t[j..j + |Placeholder|][0] == t[j];
    }
  }

  /** As written, the prompt goes through JavaScript's `replace`, which expands `$$` in the
      fetched data to a single `$`. */
  lemma PromptDollarExpansion()
    ensures JsBuildPrompt(Some("Price: {{externalData}}"), "$$5") == "Price: $5"
  {
    var t := "Price: {{externalData}}";
    PlaceholderAtSeven();
    assert ExpandReplacement("$$5", t[..7], Placeholder, t[7 + |Placeholder|..]) == "$5";
    assert t[..7] + "$5" + t[7 + |Placeholder|..] == "Price: $5";
  }

  /** The literal substitution keeps the fetched data intact. */
  lemma PromptKeepsDollars()
    ensures BuildPrompt(Some("Price: {{externalData}}"), "$$5") == "Price: $$5"
  {
    var t := "Price: {{externalData}}";
    PlaceholderAtSeven();
    assert t[..7] + "$$5" + t[7 + |Placeholder|..] == "Price: $$5";
  }

  /** Whether an API key is configured: an absent or empty key is falsy. */
  predicate HasKey(apiKey: Option<string>) {
    apiKey.Some? && apiKey.value != ""
  }

  /** The request headers of the HTTP handler. */
  function ApiHeaders(apiKey: Option<string>): (h: map<string, string>)
    ensures "Accept" in h && h["Accept"] == "application/json"
    ensures !HasKey(apiKey) ==> h.Keys == {"Accept"}
    ensures HasKey(apiKey) ==>
              && h.Keys == {"Accept", "x-cg-demo-api-key", "Authorization", "x-api-key"}
              && h["x-cg-demo-api-key"] == apiKey.value
              && h["Authorization"] == "Bearer " + apiKey.value
              && h["x-api-key"] == apiKey.value
  {
    var base := map["Accept" := "application/json"];
    if HasKey(apiKey) then
      base["x-cg-demo-api-key" := apiKey.value]
          ["Authorization" := "Bearer " + apiKey.value]
          ["x-api-key" := apiKey.value]
    else base
  }
}

=== FILE: registry.dfy ===
/** The activation registry (`activeJobs`): workflow id to the cron job that re-runs it.
    Jobs are opaque handles with a started/stopped flag; a handle is the job's index in the
    list of every job ever scheduled. */
module Registry {
  import opened Wrappers
  import opened WorkflowModel
  import opened Handlers
  import opened Engine

  /** A scheduled job: the workflow it was created for, the snapshot its callback runs (`None`
      when `findById` found nothing), and whether it still ticks. */
  datatype Job = Job(workflowId: string, snapshot: Option<Workflow>, running: bool)

  datatype Registry = Registry(jobs: seq<Job>, active: map<string, nat>)

  /** The `status` of the routes' replies. */
  datatype Reply = Active | Inactive

  function Empty(): Registry {
    Registry([], map[])
  }

  /** The process starts with no job. */
  lemma EmptyValid()
    ensures Valid(Empty()) && forall id :: LiveJobs(Empty(), id) == {}
  {
  }

  /** Every registered handle names a running job of its id, and every running job is the one
      registered for its id: no job ticks unregistered, and no id has two jobs ticking. */
  ghost predicate Valid(r: Registry) {
    && (forall id :: id in r.active ==>
          r.active[id] < |r.jobs| && r.jobs[r.active[id]].workflowId == id && r.jobs[r.active[id]].running)
    && (forall h :: 0 <= h < |r.jobs| && r.jobs[h].running ==>
          r.jobs[h].workflowId in r.active && r.active[r.jobs[h].workflowId] == h)
  }

  /** The running jobs created for `id`. */
  function LiveJobs(r: Registry, id: string): set<nat> {
    set h: nat | h < |r.jobs| && r.jobs[h].running && r.jobs[h].workflowId == id
  }

  /** In a valid registry the running jobs of `id` are exactly its registered one, if any. */
  lemma LiveJobsRegistered(r: Registry, id: string)
    requires Valid(r)
    ensures id in r.active ==> LiveJobs(r, id) == {r.active[id]}
    ensures id !in r.active ==> LiveJobs(r, id) == {}
  {
  }

  /** `activeJobs[id].stop()` on job `h`. */
  function Stop(jobs: seq<Job>, h: nat): (r: seq<Job>)
    requires h < |jobs|
    ensures |r| == |jobs| && !r[h].running
    ensures forall k :: 0 <= k < |jobs| && k != h ==> r[k] == jobs[k]
  {
    jobs[h := jobs[h].(running := false)]
  }

  /** The activate route's effect: stop the job registered for `id`, if any, then schedule a new
      one over the loaded snapshot and register it. */
  function Activate(r: Registry, id: string, snapshot: Option<Workflow>): (res: (Registry, Reply))
    requires Valid(r)
    ensures Valid(res.0)
    ensures res.1 == Active
    ensures id in res.0.active && res.0.active[id] == |r.jobs|
    ensures |res.0.jobs| == |r.jobs| + 1 && res.0.jobs[|r.jobs|] == Job(id, snapshot, true)
    ensures LiveJobs(res.0, id) == {|r.jobs|}
    ensures id in r.active ==> r.active[id] < |r.jobs| && !res.0.jobs[r.active[id]].running
    ensures forall h :: 0 <= h < |r.jobs| && (id !in r.active || h != r.active[id]) ==> res.0.jobs[h] == r.jobs[h]
    ensures forall k :: k != id ==> (k in r.active <==> k in res.0.active) && (k in r.active ==> res.0.active[k] == r.active[k])
  {
    var jobs := if id in r.active then Stop(r.jobs, r.active[id]) else r.jobs;
    var h := |jobs|;
    var r' := Registry(jobs + [Job(id, snapshot, true)], r.active[id := h]);
    assert forall k :: 0 <= k < |jobs| ==> r'.jobs[k] == jobs[k];
    LiveJobsRegistered(r', id);
    (r', Active)
  }

  /** The deactivate route's effect: stop and forget the job registered for `id`, if any. The
      reply is `Inactive` either way. */
  function Deactivate(r: Registry, id: string): (res: (Registry, Reply))
    requires Valid(r)
    ensures Valid(res.0)
    ensures res.1 == Inactive
    ensures id !in res.0.active && LiveJobs(res.0, id) == {}
    ensures id !in r.active ==> res.0 == r
    ensures |res.0.jobs| == |r.jobs|
    ensures id in r.active ==> r.active[id] < |r.jobs| && !res.0.jobs[r.active[id]].running
    ensures forall h :: 0 <= h < |r.jobs| && (id !in r.active || h != r.active[id]) ==> res.0.jobs[h] == r.jobs[h]
    ensures forall k :: k != id ==> (k in r.active <==> k in res.0.active) && (k in r.active ==> res.0.active[k] == r.active[k])
  {
    if id in r.active then
      var r' := Registry(Stop(r.jobs, r.active[id]), r.active - {id});
      LiveJobsRegistered(r', id);
      (r', Inactive)
    else (r, Inactive)
  }

  /** Activating twice leaves one live job for the id; deactivating then leaves none. */
  lemma ActivateTwiceThenDeactivate(r: Registry, id: string, w1: Option<Workflow>, w2: Option<Workflow>)
    requires Valid(r)
    ensures var r1 := Activate(r, id, w1).0;
            var r2 := Activate(r1, id, w2).0;
            && |LiveJobs(r2, id)| == 1
            && LiveJobs(Deactivate(r2, id).0, id) == {}
  {
  }

  /** What one cron tick does: nothing for a stopped job; otherwise the callback either runs the
      engine, or throws on `workflow.name` when the snapshot is `null`, before any node runs. */
  datatype TickOutcome = Idle | Ran(report: RunReport) | SnapshotFault

  /** A cron tick of job `h`: a running job runs the snapshot taken at activation with an empty
      seed; a stopped job does nothing. */
  function Tick(r: Registry, h: nat, call: Provider): (res: TickOutcome)
    requires h < |r.jobs|
    ensures res.Idle? <==> !r.jobs[h].running
    ensures res.SnapshotFault? <==> r.jobs[h].running && r.jobs[h].snapshot.None?
    ensures res.Ran? ==>
              && r.jobs[h].snapshot.Some?
              && res.report == RunEngine(r.jobs[h].snapshot.value, call, map[])
              && res.report.start == ChooseStart(r.jobs[h].snapshot.value.nodes)
              && res.report.final.visited <= ExecIds(r.jobs[h].snapshot.value)
  {
    if !r.jobs[h].running then Idle
    else match r.jobs[h].snapshot
      case None => SnapshotFault
      case Some(w) => Ran(RunEngine(w, call, map[]))
  }

  /** After deactivation no job of that id ticks any more. */
  lemma DeactivatedNeverTicks(r: Registry, id: string, call: Provider)
    requires Valid(r)
    ensures var r' := Deactivate(r, id).0;
            forall h :: 0 <= h < |r'.jobs| && r'.jobs[h].workflowId == id ==> Tick(r', h, call).Idle?
  {
  }

  /** Names every plain JavaScript object inherits from `Object.prototype`. */
  const InheritedKeys: set<string> := {
    "constructor", "__proto__", "hasOwnProperty", "isPrototypeOf", "propertyIsEnumerable",
    "toLocaleString", "toString", "valueOf", "__defineGetter__", "__defineSetter__",
    "__lookupGetter__", "__lookupSetter__"}

  /** How the deactivate route ends as written: a reply, or a `TypeError` (a 500 response). */
  datatype RouteOutcome = Replied(registry: Registry, reply: Reply) | Crashed(registry: Registry)

  /** The deactivate route as written over a plain object: for an inherited name
      `activeJobs[id]` is a truthy non-job, so `.stop()` throws before any reply. */
  function DeactivateAsWritten(r: Registry, id: string): (res: RouteOutcome)
    requires Valid(r)
    ensures id in r.active ==> res == Replied(Deactivate(r, id).0, Inactive)
    ensures id !in r.active && id in InheritedKeys ==> res == Crashed(r)
    ensures id !in r.active && id !in InheritedKeys ==> res == Replied(r, Inactive)
  {
    if id in r.active then
      var (r', reply) := Deactivate(r, id);
      Replied(r', reply)
    else if id in InheritedKeys then Crashed(r)
    else Replied(r, Inactive)
  }

  /** `deactivate("toString")` with nothing registered crashes as written, while the registry
      keyed by own entries only replies `Inactive` and changes nothing. */
  lemma InheritedKeyCrashesDeactivate()
    ensures DeactivateAsWritten(Empty(), "toString").Crashed?
    ensures Deactivate(Empty(), "toString") == (Empty(), Inactive)
  {
  }
}

=== FILE: strings.dfy ===
/** String primitives the engine relies on: JavaScript's `includes`, `replace` with a
    string pattern, `substring(0, n)`, and the subsequence relation used to describe
    character filtering. Strings are sequences of characters. */
module Strings {
  import opened Wrappers

  /** `pat` occurs in `s` starting at index `i`. */
  predicate OccursAt(s: string, pat: string, i: int) {
    0 <= i && i + |pat| <= |s| && s[i..i + |pat|] == pat
  }

  /** `i` is the left-most occurrence of `pat` in `s`. */
  predicate FirstOccurrence(s: string, pat: string, i: int) {
    OccursAt(s, pat, i) && forall j :: 0 <= j < i ==> !OccursAt(s, pat, j)
  }

  lemma OccursShift(s: string, pat: string, j: int)
    requires |s| > 0 && j > 0
    ensures OccursAt(s, pat, j) <==> OccursAt(s[1..], pat, j - 1)
  {
  }

  /** Index of the first occurrence of `pat` in `s` (JavaScript `indexOf`), if any. */
  function IndexOf(s: string, pat: string): (r: Option<nat>)
    ensures r.Some? ==> FirstOccurrence(s, pat, r.value)
    ensures r.None? ==> forall j :: !OccursAt(s, pat, j)
    decreases |s|
  {
    if |pat| > |s| then None
    else if s[..|pat|] == pat then Some(0)
    else
      var rest := IndexOf(s[1..], pat);
      assert !OccursAt(s, pat, 0);
      assert forall j :: 0 < j ==> (OccursAt(s, pat, j) <==> OccursAt(s[1..], pat, j - 1)) by {
        forall j | 0 < j { OccursShift(s, pat, j); }
      }
      match rest
      case None => None
      case Some(k) => Some(k + 1)
  }

  /** JavaScript `s.includes(pat)`. */
  function Includes(s: string, pat: string): (r: bool)
    ensures r <==> exists i :: OccursAt(s, pat, i)
  {
    IndexOf(s, pat).Some?
  }

  /** Literal replacement of the first occurrence of `pat` in `s` by `rep`, character for
      character. JavaScript's `s.replace(pat, rep)` agrees with it only when `rep` contains no
      `$` (`JsReplaceAgreesWithoutDollar`); in general it is `JsReplaceFirst`. */
  function ReplaceFirst(s: string, pat: string, rep: string): (r: string)
    ensures (forall j :: !OccursAt(s, pat, j)) ==> r == s
    ensures forall i :: FirstOccurrence(s, pat, i) ==>
              r == s[..i] + rep + s[i + |pat|..]
  {
    match IndexOf(s, pat)
    case None => s
    case Some(i) =>
      assert forall k :: FirstOccurrence(s, pat, k) ==> k == i;
      s[..i] + rep + s[i + |pat|..]
  }

  /** JavaScript `s.substring(0, n)` for `n >= 0`: the longest prefix of `s` of length at most `n`. */
  function Prefix(s: string, n: nat): (r: string)
    ensures |r| == if |s| < n then |s| else n
    ensures r <= s
  {
    if |s| <= n then s else s[..n]
  }

  lemma {:induction false} PrefixIdempotent(s: string, n: nat)
    ensures Prefix(Prefix(s, n), n) == Prefix(s, n)
  {
  }

  /** `a` is obtained from `b` by deleting elements, keeping the order of the rest. */
  predicate IsSubsequence<T(==)>(a: seq<T>, b: seq<T>)
    decreases |b|
  {
    if a == [] then true
    else if b == [] then false
    else if a[0] == b[0] then IsSubsequence(a[1..], b[1..])
    else IsSubsequence(a, b[1..])
  }

  /** The text JavaScript inserts for the replacement `rep` when `String.prototype.replace`
      is given a string pattern (GetSubstitution, section 22.1.3.19.1 of ECMA-262, with no
      capture groups): `$$` becomes `$`, `$&` the matched text, `$`` the text before the
      match and `$'` the text after it; every other character is copied as is. */
  function ExpandReplacement(rep: string, before: string, matched: string, after: string): string
    decreases |rep|
  {
    if rep == [] then []
    else if rep[0] == '$' && |rep| >= 2 && rep[1] in {'$', '&', '`', '\''} then
      var piece := match rep[1]
        case '$' => "$"
        case '&' => matched
        case '`' => before
        case _ => after;
      piece + ExpandReplacement(rep[2..], before, matched, after)
    else [rep[0]] + ExpandReplacement(rep[1..], before, matched, after)
  }

  /** `s.replace(pat, rep)` exactly as JavaScript evaluates it for a string `pat`: the first
      occurrence is replaced, but `$`-patterns in `rep` are expanded. */
  function JsReplaceFirst(s: string, pat: string, rep: string): (r: string)
    ensures (forall j :: !OccursAt(s, pat, j)) ==> r == s
    ensures forall i :: FirstOccurrence(s, pat, i) ==>
              r == s[..i] + ExpandReplacement(rep, s[..i], pat, s[i + |pat|..]) + s[i + |pat|..]
  {
    match IndexOf(s, pat)
    case None => s
    case Some(i) =>
      assert forall k :: FirstOccurrence(s, pat, k) ==> k == i;
      s[..i] + ExpandReplacement(rep, s[..i], pat, s[i + |pat|..]) + s[i + |pat|..]
  }

  /** An occurrence survives putting text in front, shifted by that text's length. */
  lemma OccursAfterPrefix(x: string, s: string, pat: string, i: int)
    requires OccursAt(s, pat, i)
    ensures OccursAt(x + s, pat, |x| + i)
  {
    assert (x + s)[|x| + i..|x| + i + |pat|] == s[i..i + |pat|];
  }

  /** A text that starts with the pattern has its first occurrence at 0. */
  lemma IndexAtStart(pat: string, rest: string)
    ensures IndexOf(pat + rest, pat) == Some(0)
    ensures (pat + rest)[..0] == [] && (pat + rest)[|pat|..] == rest
  {
    assert (pat + rest)[..|pat|] == pat;
  }

  /** When the text starts with the pattern, the literal replacement puts the replacement in
      front of the rest of the text. */
  lemma ReplaceAtStart(pat: string, rest: string, rep: string)
    ensures ReplaceFirst(pat + rest, pat, rep) == rep + rest
  {
    IndexAtStart(pat, rest);
    assert ReplaceFirst(pat + rest, pat, rep) == [] + rep + rest;
  }

  /** When the text starts with the pattern, JavaScript's replacement puts the expanded
      replacement in front of the rest of the text. */
  lemma JsReplaceAtStart(pat: string, rest: string, rep: string)
    ensures JsReplaceFirst(pat + rest, pat, rep) == ExpandReplacement(rep, [], pat, rest) + rest
  {
    var s := pat + rest;
    var before, after := s[..0], s[|pat|..];
    assert JsReplaceFirst(s, pat, rep) == before + ExpandReplacement(rep, before, pat, after) + after by {
      IndexAtStart(pat, rest);
    }
    assert before == [] && after == rest;
  }

  /** A replacement without `$` is inserted literally by JavaScript. */
  lemma {:induction false} ExpandDollarFree(rep: string, before: string, matched: string, after: string)
    requires '$' !in rep
    ensures ExpandReplacement(rep, before, matched, after) == rep
    decreases |rep|
  {
    if rep != [] {
      ExpandDollarFree(rep[1..], before, matched, after);
    }
  }

  /** On `$`-free replacement text the JavaScript evaluation and the literal substitution agree. */
  lemma JsReplaceAgreesWithoutDollar(s: string, pat: string, rep: string)
    requires '$' !in rep
    ensures JsReplaceFirst(s, pat, rep) == ReplaceFirst(s, pat, rep)
  {
    var m := IndexOf(s, pat);
    if m.Some? {
      ExpandDollarFree(rep, s[..m.value], pat, s[m.value + |pat|..]);
    }
  }
}

=== FILE: workflow.dfy ===
/** The stored shape of a workflow (the Mongoose `WorkflowSchema`): a name, a list of nodes
    and a list of edges, together with the lookups the engine performs on it. */
module WorkflowModel {
  import opened Wrappers

  /** A node's free-form `data` object (label, url, apiKey, instruction, toPhone, toEmail, ...). */
  type Data = map<string, string>

  /** `data` is `None` when it was stored as an explicit `null`. */
  datatype Node = Node(id: string, kind: string, data: Option<Data>)

  datatype Edge = Edge(source: string, target: string)

  datatype Workflow = Workflow(name: string, nodes: seq<Node>, edges: seq<Edge>)

  /** A document as it arrives, before the schema applies defaults and `required` checks. */
  datatype DataField = Absent | Null | Given(fields: Data)
  datatype RawNode = RawNode(id: Option<string>, kind: Option<string>, data: DataField)
  datatype RawEdge = RawEdge(source: Option<string>, target: Option<string>)
  datatype RawWorkflow = RawWorkflow(name: Option<string>, nodes: seq<RawNode>, edges: seq<RawEdge>)

  /** The paths a failed validation reports. */
  datatype SchemaError =
    | NameMissing
    | NodeIdMissing(node: nat)
    | NodeTypeMissing(node: nat)
    | EdgeSourceMissing(edge: nat)
    | EdgeTargetMissing(edge: nat)

  /** A `{ type: String, required: true }` path: present and not the empty string. */
  predicate RequiredString(v: Option<string>) {
    v.Some? && v.value != ""
  }

  predicate RawNodeValid(n: RawNode) {
    RequiredString(n.id) && RequiredString(n.kind)
  }

  predicate RawEdgeValid(e: RawEdge) {
    RequiredString(e.source) && RequiredString(e.target)
  }

  /** Every required path of the document is filled. */
  predicate RawValid(raw: RawWorkflow) {
    && RequiredString(raw.name)
    && (forall i :: 0 <= i < |raw.nodes| ==> RawNodeValid(raw.nodes[i]))
    && (forall i :: 0 <= i < |raw.edges| ==> RawEdgeValid(raw.edges[i]))
  }

  /** Well-formedness of a stored workflow: exactly what the schema demands. Node ids need not
      be unique and edge endpoints need not name existing nodes. */
  predicate WellFormed(w: Workflow) {
    && w.name != ""
    && (forall n :: n in w.nodes ==> n.id != "" && n.kind != "")
    && (forall e :: e in w.edges ==> e.source != "" && e.target != "")
  }

  /** The failing paths of a document. */
  function SchemaErrors(raw: RawWorkflow): set<SchemaError> {
    (if RequiredString(raw.name) then {} else {NameMissing})
    + (set i | 0 <= i < |raw.nodes| && !RequiredString(raw.nodes[i].id) :: NodeIdMissing(i))
    + (set i | 0 <= i < |raw.nodes| && !RequiredString(raw.nodes[i].kind) :: NodeTypeMissing(i))
    + (set i | 0 <= i < |raw.edges| && !RequiredString(raw.edges[i].source) :: EdgeSourceMissing(i))
    + (set i | 0 <= i < |raw.edges| && !RequiredString(raw.edges[i].target) :: EdgeTargetMissing(i))
  }

  /** `data` defaults to `{}` when not supplied; an explicit `null` is kept. */
  function DataDefault(d: DataField): (r: Option<Data>)
    ensures d.Absent? ==> r == Some(map[])
    ensures d.Null? <==> r.None?
    ensures d.Given? ==> r == Some(d.fields)
  {
    match d
    case Absent => Some(map[])
    case Null => None
    case Given(f) => Some(f)
  }

  function CastNode(n: RawNode): Node
    requires RawNodeValid(n)
  {
    Node(n.id.value, n.kind.value, DataDefault(n.data))
  }

  function CastEdge(e: RawEdge): Edge
    requires RawEdgeValid(e)
  {
    Edge(e.source.value, e.target.value)
  }

  /** Validation of a document against the schema, applying the `data` default. */
  function Validate(raw: RawWorkflow): (r: Result<Workflow, set<SchemaError>>)
    ensures r.Ok? <==> RawValid(raw)
    ensures r.Ok? ==> WellFormed(r.value)
    ensures r.Ok? ==> |r.value.nodes| == |raw.nodes| && |r.value.edges| == |raw.edges|
    ensures r.Ok? ==> forall i :: 0 <= i < |raw.nodes| && raw.nodes[i].data.Absent? ==>
              r.value.nodes[i].data == Some(map[])
    ensures r.Err? ==> r.error != {}
    ensures r.Err? ==> (NameMissing in r.error <==> !RequiredString(raw.name))
  {
    if RawValid(raw) then
      Ok(Workflow(raw.name.value,
                  seq(|raw.nodes|, i requires 0 <= i < |raw.nodes| => CastNode(raw.nodes[i])),
                  seq(|raw.edges|, i requires 0 <= i < |raw.edges| => CastEdge(raw.edges[i]))))
    else
      var errs := SchemaErrors(raw);
      assert errs != {} by {
        if RequiredString(raw.name) {
          if i :| 0 <= i < |raw.nodes| && !RawNodeValid(raw.nodes[i]) {
            if !RequiredString(raw.nodes[i].id) { assert NodeIdMissing(i) in errs; }
            else { assert NodeTypeMissing(i) in errs; }
          } else {
            var i :| 0 <= i < |raw.edges| && !RawEdgeValid(raw.edges[i]);
            if !RequiredString(raw.edges[i].source) { assert EdgeSourceMissing(i) in errs; }
            else { assert EdgeTargetMissing(i) in errs; }
          }
        } else {
          assert NameMissing in errs;
        }
      }
      Err(errs)
  }

  /** The document a stored workflow serialises to. */
  function ToRaw(w: Workflow): RawWorkflow {
    RawWorkflow(
      Some(w.name),
      seq(|w.nodes|, i requires 0 <= i < |w.nodes| =>
        RawNode(Some(w.nodes[i].id), Some(w.nodes[i].kind),
                match w.nodes[i].data case None => Null case Some(d) => Given(d))),
      seq(|w.edges|, i requires 0 <= i < |w.edges| =>
        EdgeToRaw(w.edges[i])))
  }

  function EdgeToRaw(e: Edge): RawEdge {
    RawEdge(Some(e.source), Some(e.target))
  }

  /** Saving and reloading a well-formed workflow gives it back unchanged. */
  lemma ValidateToRaw(w: Workflow)
    requires WellFormed(w)
    ensures Validate(ToRaw(w)) == Ok(w)
  {
    var raw := ToRaw(w);
    assert forall i :: 0 <= i < |raw.nodes| ==> RawNodeValid(raw.nodes[i]) by {
      forall i | 0 <= i < |raw.nodes| ensures RawNodeValid(raw.nodes[i]) {
        assert w.nodes[i] in w.nodes;
      }
    }
    assert forall i :: 0 <= i < |raw.edges| ==> RawEdgeValid(raw.edges[i]) by {
      forall i | 0 <= i < |raw.edges| ensures RawEdgeValid(raw.edges[i]) {
        assert w.edges[i] in w.edges;
      }
    }
    var v := Validate(raw).value;
    assert v.nodes == w.nodes;
    assert v.edges == w.edges;
  }

  /** The schema admits duplicate node ids and edges whose endpoints name no node. */
  lemma SchemaAdmitsLooseGraphs()
    ensures WellFormed(Workflow("w", [Node("a", "input", None), Node("a", "default", None)],
                                [Edge("a", "ghost")]))
  {
  }

  /** JavaScript `nodes.find(n => n.id === id)`: the first node with that id. */
  function FindNode(nodes: seq<Node>, id: string): (r: Option<Node>)
    ensures r.Some? ==> r.value in nodes && r.value.id == id
    ensures r.Some? ==> exists k :: 0 <= k < |nodes| && nodes[k] == r.value &&
                                    forall j :: 0 <= j < k ==> nodes[j].id != id
    ensures r.None? <==> forall k :: 0 <= k < |nodes| ==> nodes[k].id != id
  {
    if nodes == [] then None
    else if nodes[0].id == id then Some(nodes[0])
    else
      var r := FindNode(nodes[1..], id);
      assert forall k :: 1 <= k < |nodes| ==> nodes[k] == nodes[1..][k - 1];
      if r.Some? then
        var k :| 0 <= k < |nodes[1..]| && nodes[1..][k] == r.value &&
                 forall j :: 0 <= j < k ==> nodes[1..][j].id != id;
        assert nodes[k + 1] == r.value;
        r
      else r
  }

  /** The node `executeNode(id)` would run: the first node with that id, provided it has `data`. */
  predicate Executable(w: Workflow, id: string) {
    var n := FindNode(w.nodes, id);
    n.Some? && n.value.data.Some?
  }

  /** The ids that can ever be marked visited. */
  function ExecIds(w: Workflow): set<string> {
    set n | n in w.nodes && Executable(w, n.id) :: n.id
  }

  /** `edges.filter(e => e.source === id).map(e => e.target)`, in list order. */
  function Targets(edges: seq<Edge>, id: string): (r: seq<string>)
    ensures forall t :: t in r <==> Edge(id, t) in edges
    ensures |r| <= |edges|
  {
    if edges == [] then []
    else
      var rest := Targets(edges[1..], id);
      assert forall e :: e in edges <==> e == edges[0] || e in edges[1..];
      if edges[0].source == id then [edges[0].target] + rest else rest
  }

  /** Filtering a concatenation filters each part in turn: the targets keep edge-list order. */
  lemma {:induction false} TargetsAppend(a: seq<Edge>, b: seq<Edge>, id: string)
    ensures Targets(a + b, id) == Targets(a, id) + Targets(b, id)
    decreases |a|
  {
    if a == [] {
      assert a + b == b;
    } else {
      assert (a + b)[0] == a[0] && (a + b)[1..] == a[1..] + b;
      TargetsAppend(a[1..], b, id);
    }
  }

  /** The `k`-th edge, when it leaves `id`, contributes its target right after the targets of
      the matching edges before it. */
  lemma TargetsInOrder(edges: seq<Edge>, id: string)
    ensures forall k :: 0 <= k < |edges| && edges[k].source == id ==>
              |Targets(edges[..k], id)| < |Targets(edges, id)| &&
              Targets(edges, id)[|Targets(edges[..k], id)|] == edges[k].target
  {
    forall k | 0 <= k < |edges| && edges[k].source == id
      ensures |Targets(edges[..k], id)| < |Targets(edges, id)|
      ensures Targets(edges, id)[|Targets(edges[..k], id)|] == edges[k].target
    {
      var rest := [edges[k]] + edges[k + 1..];
      assert edges == edges[..k] + rest;
      assert rest[1..] == edges[k + 1..];
      TargetsAppend(edges[..k], rest, id);
    }
  }

  /** One entry per edge: a target occurs as often as there are edges from `id` to it. */
  lemma {:induction false} TargetsCount(edges: seq<Edge>, id: string)
    ensures forall t :: multiset(Targets(edges, id))[t] == multiset(edges)[Edge(id, t)]
    decreases |edges|
  {
    if edges != [] {
      TargetsCount(edges[1..], id);
      assert edges == [edges[0]] + edges[1..];
      assert multiset(edges) == multiset{edges[0]} + multiset(edges[1..]);
    }
  }

  /** `data[key]`, or `None` for `undefined`. */
  function Field(d: Data, key: string): (r: Option<string>)
    ensures r.Some? <==> key in d
    ensures r.Some? ==> r.value == d[key]
  {
    if key in d then Some(d[key]) else None
  }

  /** The node's `data.label`. */
  function Label(d: Data): Option<string> {
    Field(d, "label")
  }
}

=== FILE: wrappers.dfy ===
/** Failure-carrying wrappers shared by the rest of the model. */
module Wrappers {

  /** A value that may be absent: JavaScript's `undefined`/`null` next to a real value. */
  datatype Option<+T> = None | Some(value: T) {

    /** The wrapped value, or `default` when there is none. */
    function GetOr(default: T): T {
      match this
      case Some(v) => v
      case None => default
    }
  }

  /** Either a value or the error that prevented it. */
  datatype Result<+T, +E> = Ok(value: T) | Err(error: E)
}
